=== FILE: README.md ===
# weather.py: formats and feed parsing, in Dafny

`weather.py` fetches a Yahoo weather RSS feed for each location, reads it into
a `WeatherData` record, and prints the record through a user format in which
`%c %C %d %t %T %w %W %e` stand for city, country, date, bare temperature,
temperature with unit, bare wind speed, wind speed with unit and description.
This project models the two parts of the program that carry logic:

- **Formats** (`weather.py:30-71`). `setFormat` rewrites the user format into
  a `string.Template`, doubling every `$` and turning every `%` into `$`.
  `__str__` substitutes the record's eight-entry mapping into that template.
  - `Template` gives the substitution semantics: `$$`, `$name`, `${name}`,
    invalid placeholders and missing keys, with the first failure deciding
    the error.
  - `Format` gives the rewrite. It also gives `ReadText`, a reader that
    interprets the `%` directives straight off the user's text. The theorem
    `Format.RewriteAgrees` shows the reader agrees with rewriting and then
    substituting.
  - `Weather` holds the record, the mapping and the consequences for users:
    - what every directive renders as;
    - what well-formed formats render as;
    - the default line;
    - the escapes, and the errors.
- **Feed parsing** (`weather.py:100-129`).
  - `Namespaces` models the `re.findall` scan for `xmlns:prefix="uri"` and the
    dictionary it fills, where a later declaration wins.
  - `Feed` models the walk over the element tree: `find` on the first direct
    child with a tag, prefixed paths resolved through that dictionary to
    `{uri}local` tags, and the attribute reads. Each way the walk can fail is
    an error value, in the order the source lines would raise it.
  - Round-trip lemmas show that a feed of the expected shape parses back to
    the values it was built from. `Feed.FeedToLine` runs from feed text to
    the printed default line, for a given tree whose tags carry the declared
    URI; the XML parser itself is not modelled.

Modules: `Results` (Option/Result), `Chars` (ASCII character classes, word
runs, counting, Python's `str.strip`), `Template`, `Format`, `Weather`,
`Namespaces`, `Feed`.

Behaviour of the code that a reader of the format help text might not expect:
- `%%` renders as `$`, not as `%`. `%%` becomes `$$`, which the template reads
  as an escaped `$`.
- An unknown directive is not rejected when the format is set. It fails while
  rendering, as a `KeyError` on the longest identifier `[_A-Za-z][_A-Za-z0-9]*`
  after the `%`. So `%cX` fails on the name `cX`. A `%` followed by a digit,
  or by anything else that opens no name, escape or braced name, fails as an
  invalid placeholder (`ValueError`): `%1` is one.
- `pubDate` is kept as the element's text, with no date parsing and no date
  format. That text is `None` for an empty element and prints as `None`.
- `%$` becomes `$$$`: an escaped `$` followed by a live delimiter. So `%$c`
  renders as `$` followed by the city (`Weather.RenderPercentDollar`).

## Model

| member | source | states |
|---|---|---|
| Format.EscapeDollars | weather.py:55 | `replace('$', '$$')` lengthens the text by one for each `$`, doubles the count of `$`, keeps the count of every other character, and keeps `%` present exactly when it was |
| Format.PercentsToDollars | weather.py:56 | `replace('%', '$')` keeps the length and changes exactly the `%` characters, each into `$` |
| Format.Rewrite | weather.py:55-57 | the template text holds no `%` and is longer than the user format by its number of `$` |
| Format.RewriteIsSpelled | weather.py:55-56 | the two successive replacements equal a one-pass, character-by-character rewrite |
| Format.RewriteNoDollar | weather.py:55-56 | for a format without `$`, the template is the format with each `%` replaced by `$` and nothing else changed |
| Weather.SetFormat | weather.py:43-57 | `setFormat` stores a `%`-free template of the stated length and changes none of the eight fields |
| Weather.DefaultTemplateIsRewrite | weather.py:40-41 | the template a new record carries is the rewrite of `%c (%C),%d,%e,%T,%W` |
| Weather.Mapping | weather.py:61-70 | the substitution mapping has exactly the keys `c C d t T w W e` |
| Template.Substitute | weather.py:71 | every error is well-formed: a missing key is an identifier absent from the mapping, and an invalid placeholder lies inside the template; a template without `$` is copied unchanged |
| Template.SubstituteWithin | weather.py:71 | the same error-location and copy facts at every offset of a template scan |
| Format.RewriteAgrees | weather.py:55-71 | substituting the rewritten template equals reading the user's `%` directives straight off the user format |
| Format.ReadPieces | weather.py:55-71 | a format of `%`-free text and identifier directives, each directive followed by the end, another directive, or text starting with a non-word character, reads as the text with each directive replaced by its value |
| Format.SpelledAgrees | weather.py:55-71 | at every offset, substituting the rewrite of a text equals reading it directly, both for plain text and for what follows a delimiter |
| Format.ReadLiteral | weather.py:55-71 | text without `%` reads as itself, and reading resumes after it at the offset its `$` characters were doubled to |
| Format.ReadEscapedPercent | weather.py:55-71 | `%%` between `%`-free text reads as a single `$` |
| Format.ReadDollarName | weather.py:55-71 | `%$name` reads as `$` followed by the value of `name` |
| Format.ReadUnknownName | weather.py:55-71 | a `%` followed by a name the mapping lacks, after any text that reads without error, is a missing-key error naming the whole name |
| Format.ReadThen | weather.py:55-71 | text that reads without error, followed by a `%`, reads as its own output in front of what the rest reads as, the rest starting at the template offset the text's doubled `$` push it to |
| Format.ReadInvalidAfter | weather.py:55-71 | a `%` that opens nothing, after any text that reads without error, is an invalid placeholder at the template offset right after that delimiter (the text's length plus its `$` count, plus one) |
| Weather.RenderReadsFormat | weather.py:43-71 | `str()` after `setFormat(fmt)` is what the reader makes of `fmt` under the record's mapping |
| Weather.RenderVerbatim | weather.py:55-71 | a format without `%` prints as itself, each `$` as one `$`, whatever the record holds |
| Weather.ToString | weather.py:60-71 | `str()` copies a `$`-free template; a missing key is an identifier outside the eight names; an invalid placeholder lies inside the template |
| Weather.RenderPieces | weather.py:43-71 | a format of `%`-free text and known directives, each directive followed by the end, another directive, or a non-word character, prints as its text with every directive replaced by the record's value |
| Weather.RenderPlace | weather.py:61-71 | `%c` prints the city and `%C` the country |
| Weather.RenderDateAndDescription | weather.py:61-71 | `%d` prints the `pubDate` text (`None` when empty) and `%e` the description |
| Weather.RenderTemperature | weather.py:61-71 | `%t` prints the bare temperature; `%T` appends `°` and the unit |
| Weather.RenderWind | weather.py:61-71 | `%w` prints the bare wind speed; `%W` appends a space and the unit |
| Weather.RenderPercentPercent | weather.py:55-71 | `%%` between `%`-free text prints as a single `$` |
| Weather.RenderPercentDollar | weather.py:55-71 | `%$k`, for a known directive `k`, prints `$` followed by the value of `k` |
| Weather.RenderUnknownDirective | weather.py:55-71 | after any prefix that prints without error, a `%` followed by an identifier outside the eight names fails with that whole identifier as the missing key |
| Weather.RenderInvalidDirective | weather.py:55-71 | after any prefix that prints without error, a `%` that opens no name, escape or braced name fails as an invalid placeholder at the offset after it in the stored template |
| Weather.RenderDefault | weather.py:40-71 | a new record prints as `city (country),date,description,temperature°unit,speed unit` |
| Chars.WordRun | weather.py:101 | the `\w+` run taken is maximal: every character in it is a word character and the next one, if any, is not |
| Chars.TrimStart | weather.py:105 | the result is a suffix of the input, everything cut off is whitespace, and it does not begin with whitespace |
| Chars.TrimEnd | weather.py:105 | the result is a prefix of the input, everything cut off is whitespace, and it does not end with whitespace |
| Chars.Strip | weather.py:105 | `strip()` never lengthens, leaves no whitespace at either end, and leaves whitespace-free text alone |
| Chars.StripIsSlice | weather.py:105 | `strip()` returns a slice of the text with only whitespace before and after it |
| Namespaces.MatchDecl | weather.py:101 | a match at the start of the text is a valid declaration whose text begins the input |
| Namespaces.MatchDeclText | weather.py:101 | a declaration's own text is matched, with exactly that prefix and URI |
| Namespaces.FindAll | weather.py:101 | every match found holds a non-empty word-character prefix and a non-empty quote-free URI |
| Namespaces.FindAllSound | weather.py:101 | each match the scan reports is what the pattern matches at its own offset in the text, and each starts after the previous one ends |
| Namespaces.FindAllComplete | weather.py:101 | every position where the pattern matches lies inside a match the scan reports, so no match is skipped |
| Namespaces.FindAllSkipTo | weather.py:101 | positions where the pattern does not match are passed over without changing what the scan finds |
| Namespaces.FindAllDocument | weather.py:101 | round trip: declarations written between separators that contain no `x` are found exactly, in order |
| Namespaces.EmptyMapIffNoMatch | weather.py:101-105 | the prefix map is empty exactly when the pattern matches at no position of the text |
| Namespaces.NoDeclarations | weather.py:101-105 | a text without `x` declares nothing, and its prefix map is empty |
| Namespaces.CollectNamespaces | weather.py:102-105 | the loop over the matches builds the prefix map of the text |
| Namespaces.Fold | weather.py:102-105 | the map has at most one key per match, and at least one when there is a match |
| Namespaces.NamespaceMap | weather.py:101-105 | every key of the prefix map is a non-empty run of word characters |
| Namespaces.MatchedKeys | weather.py:101-105 | a key is in the prefix map exactly when some match's prefix, as matched, equals it: matched prefixes need no stripping |
| Namespaces.FoldKeys | weather.py:104-105 | a key is in the map exactly when some match declares it after stripping |
| Namespaces.FoldLastWins | weather.py:104-105 | a prefix maps to the stripped URI of its last declaration |
| Namespaces.SingleDeclaration | weather.py:101-105 | one declaration in `x`-free text yields the one-entry map from its prefix to its stripped URI |
| Feed.Find | weather.py:108 | `find` gives `None` exactly when no direct child has the tag; otherwise it gives the first child with that tag |
| Feed.FindPast | weather.py:108 | children with other tags in front of the rest do not change what `find` gives |
| Feed.ParseWeather | weather.py:100-129 | the error is `MalformedXml` exactly when the text does not parse; a root without a `channel` child fails on the channel; the error is `UnknownPrefix("yweather")` exactly when a channel exists but `yweather` is undeclared; parsing succeeds exactly when, beyond that, every element and attribute lines 109-127 read is present, and then gives the record of those values |
| Feed.ReadChannel | weather.py:109-127 | a missing `item` fails first; every failure is a missing element or attribute; the read succeeds exactly when all are present, and gives the record built from them |
| Feed.ReadItem | weather.py:109-116 | a missing `item` is the error before any other element is inspected |
| Feed.Assemble | weather.py:118-127 | the record is built exactly when every element and attribute is present, and each field is the attribute or text it is read from |
| Feed.ReadLocation | weather.py:119-120 | the city and country are read exactly when the location element has both attributes |
| Feed.ReadCondition | weather.py:122-123 | the temperature and description are read exactly when the condition element has `temp` and `text` |
| Feed.ReadWind | weather.py:124 | the speed is read exactly when the wind element has a `speed` attribute |
| Feed.ReadUnits | weather.py:126-127 | both units are read exactly when the units element has `temperature` and `speed` |
| Feed.ParseFeed | weather.py:107-129 | a feed built from eight values, with `yweather` declared as its namespace, parses back to exactly those values |
| Feed.FeedToLine | weather.py:100-129 | feed text declaring `yweather` once, with a tree of the feed's shape whose tags carry that URI taken as what the XML parser returns, parses and prints as the default line of its values |

## Left out

- Fetching the feed (`downloadWeather`, `urlopen`, the printed `URLError`) is I/O outside the logic modelled here.
- `initArgumentParser`, `main`, the global `args`, `--imperial`, `--file` and printing are argument handling and output only.
- `et.fromstring` is not modelled: XML parsing is a library call. The element tree is a parameter, `None` when the text is not well-formed.
- `find` is modelled for the two path shapes the source uses: a plain tag and `prefix:local`. The rest of ElementTree's path language is not modelled.
- Python's `\w` is Unicode-aware, but the model uses ASCII `[A-Za-z0-9_]`. `string.Template` names are also ASCII, case-insensitive.
- Python reports an invalid placeholder as a `ValueError` with a line and column. The model keeps only the offset in the template.
- The class attributes that are `None` before `parseWeather` assigns them are not modelled: a record is always built with all eight values.
- Ctrl-C handling in `main` (`KeyboardInterrupt`) is process control.
- Feed.ParseWeather: checks once that `yweather` is declared, right after the channel is found. All five prefixed paths use that one prefix, so only the first of them (line 111) can raise.
- Feed.FeedToLine: the tree is a parameter, assumed to be what the XML parser returns for the text; the lemma does not show that the rest of the text parses. It is stated for a URI that `strip()` leaves alone and that holds no `&`, `<`, tab, newline or carriage return, and no character XML 1.0 forbids (U+0000-U+0008, U+000B, U+000C, U+000E-U+001F, U+FFFE, U+FFFF; `Feed.ParsedAsWritten`). For other URIs the parser rejects the text or reports a normalised or decoded URI, which is outside this model.
- Weather.New: carries no `ensures` of its own. What a new record holds is stated by `Weather.DefaultTemplateIsRewrite` (its template) and `Weather.RenderDefault` (what it prints). The template is written out as a literal, and `DefaultTemplateIsRewrite` proves that it is the rewrite of the default format.

=== FILE: chars.dfy ===
/** Character classes and small scanners shared by the template reader and
    the namespace scan. Word characters are the ASCII ones. */
module Chars {

  predicate IsLetter(c: char) {
    'a' <= c <= 'z' || 'A' <= c <= 'Z'
  }

  predicate IsDigit(c: char) {
    '0' <= c <= '9'
  }

  /** `[_A-Za-z]`: a character that may begin an identifier. */
  predicate IsNameStart(c: char) {
    c == '_' || IsLetter(c)
  }

  /** `[_A-Za-z0-9]`: a word character (`\w`, and the tail of an identifier). */
  predicate IsWordChar(c: char) {
    IsNameStart(c) || IsDigit(c)
  }

  /** A non-empty run of word characters that begins with a name start:
      the identifier pattern `[_A-Za-z][_A-Za-z0-9]*`. */
  predicate IsIdentifier(s: string) {
    |s| > 0 && IsNameStart(s[0]) && forall i :: 0 <= i < |s| ==> IsWordChar(s[i])
  }

  /** The characters for which Python's `str.isspace()` holds; these are
      what `str.strip()` without arguments removes. */
  predicate IsSpace(c: char) {
    || '\U{9}' <= c <= '\U{D}'
    || '\U{1C}' <= c <= '\U{20}'
    || c == '\U{85}' || c == '\U{A0}' || c == '\U{1680}'
    || '\U{2000}' <= c <= '\U{200A}'
    || c == '\U{2028}' || c == '\U{2029}' || c == '\U{202F}'
    || c == '\U{205F}' || c == '\U{3000}'
  }

  /** Length of the longest prefix of `s` made of word characters. */
  function WordRun(s: string): (n: nat)
    ensures n <= |s|
    ensures forall i :: 0 <= i < n ==> IsWordChar(s[i])
    ensures n == |s| || !IsWordChar(s[n])
  {
    if |s| == 0 || !IsWordChar(s[0]) then 0 else 1 + WordRun(s[1..])
  }

  lemma {:induction false} WordRunAppend(a: string, b: string)
    requires forall i :: 0 <= i < |a| ==> IsWordChar(a[i])
    ensures WordRun(a + b) == |a| + WordRun(b)
    decreases |a|
  {
    if |a| == 0 {
      assert a + b == b;
    } else {
      assert (a + b)[1..] == a[1..] + b;
      WordRunAppend(a[1..], b);
    }
  }

  /** Text appended after the end of a word run leaves the run as it was,
      unless the run reached the end and the new text goes on with a word
      character. */
  lemma {:induction false} WordRunExtend(a: string, b: string)
    requires WordRun(a) < |a| || |b| == 0 || !IsWordChar(b[0])
    ensures WordRun(a + b) == WordRun(a)
    decreases |a|
  {
    if |a| == 0 {
      assert a + b == b;
    } else if IsWordChar(a[0]) {
      assert (a + b)[1..] == a[1..] + b;
      WordRunExtend(a[1..], b);
    }
  }

  /** Number of occurrences of `c` in `s`. */
  function Count(s: string, c: char): (n: nat)
    ensures n <= |s|
    ensures n == 0 <==> c !in s
  {
    if |s| == 0 then 0
    else (if s[0] == c then 1 else 0) + Count(s[1..], c)
  }

  lemma {:induction false} CountAppend(a: string, b: string, c: char)
    ensures Count(a + b, c) == Count(a, c) + Count(b, c)
    decreases |a|
  {
    if |a| == 0 {
      assert a + b == b;
    } else {
      assert (a + b)[1..] == a[1..] + b;
      CountAppend(a[1..], b, c);
    }
  }

  /** `s` with its leading whitespace removed. */
  function TrimStart(s: string): (r: string)
    ensures |r| <= |s| && r == s[|s| - |r|..]
    ensures forall i :: 0 <= i < |s| - |r| ==> IsSpace(s[i])
    ensures |r| == 0 || !IsSpace(r[0])
  {
    if |s| > 0 && IsSpace(s[0]) then TrimStart(s[1..]) else s
  }

  /** `s` with its trailing whitespace removed. */
  function TrimEnd(s: string): (r: string)
    ensures |r| <= |s| && r == s[..|r|]
    ensures forall i :: |r| <= i < |s| ==> IsSpace(s[i])
    ensures |r| == 0 || !IsSpace(r[|r| - 1])
  {
    if |s| > 0 && IsSpace(s[|s| - 1]) then TrimEnd(s[..|s| - 1]) else s
  }

  /** Python's `str.strip()`: the middle part of `s` between its leading and
      trailing whitespace, which neither begins nor ends with whitespace
      (`StripIsSlice` shows it is that middle part). */
  function Strip(s: string): (r: string)
    ensures |r| <= |s|
    ensures |r| == 0 || (!IsSpace(r[0]) && !IsSpace(r[|r| - 1]))
    ensures (forall i :: 0 <= i < |s| ==> !IsSpace(s[i])) ==> r == s
  {
    StripEnds(s);
    TrimEnd(TrimStart(s))
  }

  /** Trimming both ends of `s` leaves no whitespace at either end, and
      leaves whitespace-free text alone. */
  lemma StripEnds(s: string)
    ensures var u := TrimEnd(TrimStart(s));
      |u| <= |s| &&
      (|u| == 0 || (!IsSpace(u[0]) && !IsSpace(u[|u| - 1]))) &&
      ((forall k :: 0 <= k < |s| ==> !IsSpace(s[k])) ==> u == s)
  {
    var t := TrimStart(s);
    var u := TrimEnd(t);
    assert |u| == 0 || u[0] == t[0];
    if forall k :: 0 <= k < |s| ==> !IsSpace(s[k]) {
      assert |s| == 0 || !IsSpace(s[0]);
      assert |t| == |s|;
      assert |t| == 0 || !IsSpace(t[|t| - 1]);
      assert |u| == |t|;
    }
  }

  /** `strip()` keeps a slice of the text and removes only whitespace
      around it. */
  lemma StripIsSlice(s: string)
    ensures exists i, j :: 0 <= i <= j <= |s| && Strip(s) == s[i..j] &&
              (forall k :: 0 <= k < i ==> IsSpace(s[k])) &&
              (forall k :: j <= k < |s| ==> IsSpace(s[k]))
  {
    var t := TrimStart(s);
    var u := TrimEnd(t);
    var i := |s| - |t|;
    StripSlice(s, t, u, i);
    assert Strip(s) == s[i..i + |u|];
  }

  /** The text left after trimming `t`, the last `|s| - i` characters of `s`,
      at its end is the slice of `s` starting at `i`, and everything after
      it is whitespace. */
  lemma StripSlice(s: string, t: string, u: string, i: nat)
    requires i + |t| == |s| && t == s[i..]
    requires |u| <= |t| && u == t[..|u|] && forall k :: |u| <= k < |t| ==> IsSpace(t[k])
    ensures u == s[i..i + |u|]
    ensures forall k :: i + |u| <= k < |s| ==> IsSpace(s[k])
  {
    forall k | 0 <= k < |u| ensures u[k] == s[i..i + |u|][k] {
      assert u[k] == t[k] == s[i + k];
    }
    forall k | i + |u| <= k < |s| ensures IsSpace(s[k]) {
      assert s[k] == t[k - i];
    }
  }

}

=== FILE: feed.dfy ===
/** `parseWeather` (weather.py:100-129): the feed text's namespace
    declarations, the element tree `et.fromstring` builds from it, and the
    walk over that tree that fills a `WeatherData`. Parsing the XML itself is
    outside the model: the tree arrives as a parameter, `None` when the text
    is not well-formed. */
module Feed {
  import opened Results
  import opened Chars
  import opened Format
  import opened Namespaces
  import opened Weather

  /** An element as ElementTree presents it. A namespaced tag is in Clark
      notation, `{uri}local`; `text` is `None` for an element without text. */
  datatype Element = Element(tag: string, attrib: map<string, string>, text: Option<string>, children: seq<Element>)

  /** The exceptions `parseWeather` can end in. */
  datatype ParseError =
    | MalformedXml                 // `et.fromstring` rejects the text
    | UnknownPrefix(prefix: string) // `find` is given a prefix the map lacks
    | MissingElement(path: string)  // a `find` that gave `None` is dereferenced
    | MissingAttribute(name: string) // `attrib[name]` on an element without it

  type Parse<T> = Result<T, ParseError>

  /** The prefix every namespaced path of `parseWeather` uses. */
  const WeatherPrefix: string := "yweather"

  function Clark(uri: string, local: string): string {
    "{" + uri + "}" + local
  }

  /** Index of the first element tagged `tag`, or `|cs|`. */
  function FirstTagged(cs: seq<Element>, tag: string): (i: nat)
    ensures i <= |cs|
    ensures forall j :: 0 <= j < i ==> cs[j].tag != tag
    ensures i < |cs| ==> cs[i].tag == tag
  {
    if |cs| == 0 || cs[0].tag == tag then 0 else 1 + FirstTagged(cs[1..], tag)
  }

  /** `Element.find(tag)`: the first direct child with that tag, if any. */
  function Find(e: Element, tag: string): (r: Option<Element>)
    ensures r.None? <==> forall j :: 0 <= j < |e.children| ==> e.children[j].tag != tag
    ensures r.Some? ==> exists i :: 0 <= i < |e.children| && r.value == e.children[i] && r.value.tag == tag
                                    && forall j :: 0 <= j < i ==> e.children[j].tag != tag
  {
    var i := FirstTagged(e.children, tag);
    if i < |e.children| then Some(e.children[i]) else None
  }

  /** Dereferencing what `find` returned: `None` fails with `path`. */
  function Need(o: Option<Element>, path: string): (r: Parse<Element>)
    ensures r.Ok? <==> o.Some?
    ensures r.Err? ==> r.error == MissingElement(path)
  {
    match o
    case Some(e) => Ok(e)
    case None => Err(MissingElement(path))
  }

  /** `e.attrib[name]`. */
  function Attr(e: Element, name: string): (r: Parse<string>)
    ensures r.Ok? <==> name in e.attrib
    ensures r.Ok? ==> r.value == e.attrib[name]
    ensures r.Err? ==> r.error == MissingAttribute(name)
  {
    if name in e.attrib then Ok(e.attrib[name]) else Err(MissingAttribute(name))
  }

  /** `parseWeather(data)`, with the tree `et.fromstring(data)` builds given
      as `tree`. The steps run in the order of lines 101-127, so the first
      failing line decides the error. All five prefixed paths use the prefix
      `yweather`, so only the first of them (line 111) can fail to resolve. */
  function ParseWeather(data: string, tree: Option<Element>): (r: Parse<WeatherData>)
    ensures r == Err(MalformedXml) <==> tree.None?
    ensures tree.Some? && Find(tree.value, "channel").None? ==> r == Err(MissingElement("channel"))
    ensures r.Err? && r.error.UnknownPrefix? <==>
              tree.Some? && Find(tree.value, "channel").Some? && WeatherPrefix !in NamespaceMap(data)
    ensures r.Err? && r.error.UnknownPrefix? ==> r.error.prefix == WeatherPrefix
    ensures r.Ok? <==> tree.Some? && Find(tree.value, "channel").Some? && WeatherPrefix in NamespaceMap(data)
                       && ChannelComplete(Find(tree.value, "channel").value, NamespaceMap(data)[WeatherPrefix])
    ensures r.Ok? ==> r.value == ChannelRecord(Find(tree.value, "channel").value, NamespaceMap(data)[WeatherPrefix])
  {
    var ns := NamespaceMap(data);
    if tree.None? then Err(MalformedXml)
    else
      var channel :- Need(Find(tree.value, "channel"), "channel");
      if WeatherPrefix !in ns then Err(UnknownPrefix(WeatherPrefix))
      else ReadChannel(channel, ns[WeatherPrefix])
  }

  /** Every element and attribute lines 109-127 dereference is there, with
      the prefixed paths resolved to the namespace `uri`. */
  predicate ChannelComplete(channel: Element, uri: string) {
    var item := Find(channel, "item");
    var units := Find(channel, Clark(uri, "units"));
    var location := Find(channel, Clark(uri, "location"));
    var wind := Find(channel, Clark(uri, "wind"));
    && item.Some?
    && units.Some? && "temperature" in units.value.attrib && "speed" in units.value.attrib
    && location.Some? && "city" in location.value.attrib && "country" in location.value.attrib
    && wind.Some? && "speed" in wind.value.attrib
    && var condition := Find(item.value, Clark(uri, "condition"));
       && condition.Some? && "temp" in condition.value.attrib && "text" in condition.value.attrib
       && Find(item.value, "pubDate").Some?
  }

  /** The record of a complete channel: each field the attribute or text
      the assignments of lines 118-127 read. */
  function ChannelRecord(channel: Element, uri: string): WeatherData
    requires ChannelComplete(channel, uri)
  {
    var item := Find(channel, "item").value;
    var units := Find(channel, Clark(uri, "units")).value.attrib;
    var location := Find(channel, Clark(uri, "location")).value.attrib;
    var wind := Find(channel, Clark(uri, "wind")).value.attrib;
    var condition := Find(item, Clark(uri, "condition")).value.attrib;
    New(location["city"], location["country"], Find(item, "pubDate").value.text, condition["temp"],
        wind["speed"], condition["text"], units["temperature"], units["speed"])
  }

  /** Lines 109-127 once `yweather` has resolved to `uri`. */
  function ReadChannel(channel: Element, uri: string): (r: Parse<WeatherData>)
    ensures r.Err? ==> r.error.MissingElement? || r.error.MissingAttribute?
    ensures Find(channel, "item").None? ==> r == Err(MissingElement("item"))
    ensures r.Ok? <==> ChannelComplete(channel, uri)
    ensures r.Ok? ==> r.value == ChannelRecord(channel, uri)
  {
    ReadItem(Find(channel, "item"), Find(channel, Clark(uri, "units")),
             Find(channel, Clark(uri, "location")), Find(channel, Clark(uri, "wind")), uri)
  }

  /** Lines 115-127, given what the `find` calls of lines 109-113 returned. */
  function ReadItem(item: Option<Element>, units: Option<Element>, location: Option<Element>,
                    wind: Option<Element>, uri: string): (r: Parse<WeatherData>)
    ensures r.Err? ==> r.error.MissingElement? || r.error.MissingAttribute?
    ensures item.None? ==> r == Err(MissingElement("item"))
    ensures r.Ok? ==> r.value.template == DefaultTemplate
  {
    var itemElement :- Need(item, "item");
    Assemble(Find(itemElement, Clark(uri, "condition")), Find(itemElement, "pubDate"), units, location, wind)
  }

  /** Lines 118-127: the record filled from the elements found. */
  function Assemble(condition: Option<Element>, date: Option<Element>, units: Option<Element>,
                    location: Option<Element>, wind: Option<Element>): (r: Parse<WeatherData>)
    ensures r.Err? ==> r.error.MissingElement? || r.error.MissingAttribute?
    ensures r.Ok? <==> ReadLocation(location).Ok? && date.Some? && ReadCondition(condition).Ok?
                       && ReadWind(wind).Ok? && ReadUnits(units).Ok?
    ensures r.Ok? ==> r.value == New(location.value.attrib["city"], location.value.attrib["country"],
                                     date.value.text, condition.value.attrib["temp"],
                                     wind.value.attrib["speed"], condition.value.attrib["text"],
                                     units.value.attrib["temperature"], units.value.attrib["speed"])
  {
    var place :- ReadLocation(location);
    var dateElement :- Need(date, "pubDate");
    var now :- ReadCondition(condition);
    var windspeed :- ReadWind(wind);
    var unitNames :- ReadUnits(units);
    Ok(New(place.0, place.1, dateElement.text, now.0, windspeed, now.1, unitNames.0, unitNames.1))
  }

  /** Lines 119-120: the city and the country. */
  function ReadLocation(location: Option<Element>): (r: Parse<(string, string)>)
    ensures r.Ok? <==> location.Some? && "city" in location.value.attrib && "country" in location.value.attrib
    ensures r.Ok? ==> r.value == (location.value.attrib["city"], location.value.attrib["country"])
  {
    var e :- Need(location, "yweather:location");
    var city :- Attr(e, "city");
    var country :- Attr(e, "country");
    Ok((city, country))
  }

  /** Lines 122-123: the temperature and the description. */
  function ReadCondition(condition: Option<Element>): (r: Parse<(string, string)>)
    ensures r.Ok? <==> condition.Some? && "temp" in condition.value.attrib && "text" in condition.value.attrib
    ensures r.Ok? ==> r.value == (condition.value.attrib["temp"], condition.value.attrib["text"])
  {
    var e :- Need(condition, "yweather:condition");
    var temperature :- Attr(e, "temp");
    var desc :- Attr(e, "text");
    Ok((temperature, desc))
  }

  /** Line 124: the wind speed. */
  function ReadWind(wind: Option<Element>): (r: Parse<string>)
    ensures r.Ok? <==> wind.Some? && "speed" in wind.value.attrib
    ensures r.Ok? ==> r.value == wind.value.attrib["speed"]
  {
    var e :- Need(wind, "yweather:wind");
    Attr(e, "speed")
  }

  /** Lines 126-127: the temperature unit and the speed unit. */
  function ReadUnits(units: Option<Element>): (r: Parse<(string, string)>)
    ensures r.Ok? <==> units.Some? && "temperature" in units.value.attrib && "speed" in units.value.attrib
    ensures r.Ok? ==> r.value == (units.value.attrib["temperature"], units.value.attrib["speed"])
  {
    var e :- Need(units, "yweather:units");
    var tempUnit :- Attr(e, "temperature");
    var speedUnit :- Attr(e, "speed");
    Ok((tempUnit, speedUnit))
  }

  /** A character XML 1.0 allows in a document other than tab, newline
      and carriage return (its `Char` production less those three). */
  predicate IsXmlChar(c: char) {
    '\U{20}' <= c <= '\U{D7FF}' || '\U{E000}' <= c <= '\U{FFFD}' || c >= '\U{10000}'
  }

  /** A namespace URI whose characters leave the XML parser nothing to
      reject, normalise or decode, and which the stripped URI of the prefix
      map equals: no whitespace for `strip()` to remove; only characters XML
      allows, and none of tab, newline and carriage return, which attribute
      normalisation turns into a space; no entity or character reference
      (`&`) to decode; and no `<`, which makes the text ill-formed. */
  predicate ParsedAsWritten(uri: string) {
    Strip(uri) == uri && forall i :: 0 <= i < |uri| ==> IsXmlChar(uri[i]) && uri[i] !in "&<"
  }

  /** The whole way from feed text to the default line: a text declaring
      `yweather` once, around a tree with the feed layout, yields the record
      of the eight values, and that record prints in the default format.
      The tree is given, not parsed: the lemma assumes the XML parser
      accepts the text and returns that tree, whose tags carry the URI as
      the declaration writes it. `ParsedAsWritten` rules out the URIs for
      which the parser would reject the text or report a different URI. */
  lemma FeedToLine(data: string, pre: string, d: Decl, post: string,
                   city: string, country: string, time: Option<string>, temperature: string,
                   windspeed: string, desc: string, tempUnit: string, speedUnit: string)
    requires ValidDecl(d) && d.prefix == WeatherPrefix && 'x' !in pre && 'x' !in post
    requires ParsedAsWritten(d.uri)
    requires data == pre + DeclText(d) + post
    ensures var tree := FeedTree(d.uri, city, country, time, temperature, windspeed, desc, tempUnit, speedUnit);
            var r := ParseWeather(data, Some(tree));
            r.Ok? && ToString(r.value)
                     == Ok(city + " (" + country + ")," + PyStr(time) + "," + desc + ","
                           + temperature + "°" + tempUnit + "," + windspeed + " " + speedUnit)
  {
    SingleDeclaration(pre, d, post);
    ParseFeed(data, d.uri, city, country, time, temperature, windspeed, desc, tempUnit, speedUnit);
    RenderDefault(city, country, time, temperature, windspeed, desc, tempUnit, speedUnit);
  }

  /** `find` picks the first child with the tag. */
  lemma FindAt(e: Element, tag: string, i: nat)
    requires i < |e.children| && e.children[i].tag == tag
    requires forall j :: 0 <= j < i ==> e.children[j].tag != tag
    ensures Find(e, tag) == Some(e.children[i])
  {
    FirstTaggedAt(e.children, tag, i);
  }

  lemma {:induction false} FirstTaggedAt(cs: seq<Element>, tag: string, i: nat)
    requires i < |cs| && cs[i].tag == tag
    requires forall j :: 0 <= j < i ==> cs[j].tag != tag
    ensures FirstTagged(cs, tag) == i
    decreases i
  {
    if i > 0 {
      FirstTaggedAt(cs[1..], tag, i - 1);
    }
  }

  /** Children with other tags, in front, do not change what `find` gives. */
  lemma {:induction false} FindPast(others: seq<Element>, cs: seq<Element>, e: Element, tag: string)
    requires e.children == others + cs
    requires forall j :: 0 <= j < |others| ==> others[j].tag != tag
    ensures Find(e, tag) == Find(e.(children := cs), tag)
  {
    var i := FirstTagged(cs, tag);
    if i < |cs| {
      FindAt(e, tag, |others| + i);
    } else {
      assert forall j :: 0 <= j < |e.children| ==> e.children[j].tag != tag by {
        forall j | 0 <= j < |e.children| ensures e.children[j].tag != tag {
          if j >= |others| {
            assert e.children[j] == cs[j - |others|];
          }
        }
      }
    }
  }

  /** Distinct local names in one namespace give distinct Clark tags, and no
      Clark tag is a plain tag. */
  lemma ClarkTags(uri: string, a: string, b: string, plain: string)
    requires a != b && (|plain| == 0 || plain[0] != '{')
    ensures Clark(uri, a) != Clark(uri, b) && Clark(uri, a) != plain
  {
    var n := |uri| + 2;
    assert Clark(uri, a)[n..] == a && Clark(uri, b)[n..] == b;
    assert Clark(uri, a)[0] == '{';
  }

  function Leaf(tag: string, attrib: map<string, string>, text: Option<string>): Element {
    Element(tag, attrib, text, [])
  }

  /** The `item` element of a feed: the current condition and the
      publication date. */
  function FeedItem(uri: string, time: Option<string>, temperature: string, desc: string): Element {
    Element("item", map[], None, [
      Leaf(Clark(uri, "condition"), map["temp" := temperature, "text" := desc], None),
      Leaf("pubDate", map[], time)])
  }

  /** The `channel` element of a feed with the layout the source reads. */
  function FeedChannel(uri: string, city: string, country: string, time: Option<string>,
                       temperature: string, windspeed: string, desc: string,
                       tempUnit: string, speedUnit: string): Element
  {
    Element("channel", map[], None, [
      Leaf(Clark(uri, "units"), map["temperature" := tempUnit, "speed" := speedUnit], None),
      Leaf(Clark(uri, "location"), map["city" := city, "country" := country], None),
      Leaf(Clark(uri, "wind"), map["speed" := windspeed], None),
      FeedItem(uri, time, temperature, desc)])
  }

  /** The root of a feed. */
  function FeedTree(uri: string, city: string, country: string, time: Option<string>,
                    temperature: string, windspeed: string, desc: string,
                    tempUnit: string, speedUnit: string): Element
  {
    Element("rss", map[], None,
            [FeedChannel(uri, city, country, time, temperature, windspeed, desc, tempUnit, speedUnit)])
  }

  /** Round trip: a feed built from eight values, under a text that maps
      `yweather` to the feed's namespace, parses back to those values. */
  lemma ParseFeed(data: string, uri: string, city: string, country: string, time: Option<string>,
                  temperature: string, windspeed: string, desc: string,
                  tempUnit: string, speedUnit: string)
    requires WeatherPrefix in NamespaceMap(data) && NamespaceMap(data)[WeatherPrefix] == uri
    ensures ParseWeather(data, Some(FeedTree(uri, city, country, time, temperature, windspeed, desc, tempUnit, speedUnit)))
            == Ok(New(city, country, time, temperature, windspeed, desc, tempUnit, speedUnit))
  {
    var channel := FeedChannel(uri, city, country, time, temperature, windspeed, desc, tempUnit, speedUnit);
    var root := FeedTree(uri, city, country, time, temperature, windspeed, desc, tempUnit, speedUnit);
    FindAt(root, "channel", 0);
    ParseChannel(data, root, channel, uri);
    ReadFeedChannel(channel, uri, city, country, time, temperature, windspeed, desc, tempUnit, speedUnit);
  }

  /** Once the channel is found and `yweather` resolves, parsing is reading
      the channel. */
  lemma ParseChannel(data: string, root: Element, channel: Element, uri: string)
    requires Find(root, "channel") == Some(channel)
    requires WeatherPrefix in NamespaceMap(data) && NamespaceMap(data)[WeatherPrefix] == uri
    ensures ParseWeather(data, Some(root)) == ReadChannel(channel, uri)
  {
  }

  lemma ReadFeedChannel(channel: Element, uri: string, city: string, country: string, time: Option<string>,
                        temperature: string, windspeed: string, desc: string,
                        tempUnit: string, speedUnit: string)
    requires channel == FeedChannel(uri, city, country, time, temperature, windspeed, desc, tempUnit, speedUnit)
    ensures ReadChannel(channel, uri) == Ok(New(city, country, time, temperature, windspeed, desc, tempUnit, speedUnit))
  {
    var item := FeedItem(uri, time, temperature, desc);
    ChannelFinds(channel, uri, city, country, time, temperature, windspeed, desc, tempUnit, speedUnit);
    ItemFinds(item, uri, time, temperature, desc);
  }

  lemma ChannelFinds(channel: Element, uri: string, city: string, country: string, time: Option<string>,
                     temperature: string, windspeed: string, desc: string,
                     tempUnit: string, speedUnit: string)
    requires channel == FeedChannel(uri, city, country, time, temperature, windspeed, desc, tempUnit, speedUnit)
    ensures Find(channel, "item") == Some(FeedItem(uri, time, temperature, desc))
    ensures Find(channel, Clark(uri, "units"))
            == Some(Leaf(Clark(uri, "units"), map["temperature" := tempUnit, "speed" := speedUnit], None))
    ensures Find(channel, Clark(uri, "location"))
            == Some(Leaf(Clark(uri, "location"), map["city" := city, "country" := country], None))
    ensures Find(channel, Clark(uri, "wind")) == Some(Leaf(Clark(uri, "wind"), map["speed" := windspeed], None))
  {
    ClarkTags(uri, "units", "location", "item");
    ClarkTags(uri, "location", "wind", "item");
    ClarkTags(uri, "wind", "units", "item");
    FindAt(channel, "item", 3);
    FindAt(channel, Clark(uri, "units"), 0);
    FindAt(channel, Clark(uri, "location"), 1);
    FindAt(channel, Clark(uri, "wind"), 2);
  }

  lemma ItemFinds(item: Element, uri: string, time: Option<string>, temperature: string, desc: string)
    requires item == FeedItem(uri, time, temperature, desc)
    ensures Find(item, Clark(uri, "condition"))
            == Some(Leaf(Clark(uri, "condition"), map["temp" := temperature, "text" := desc], None))
    ensures Find(item, "pubDate") == Some(Leaf("pubDate", map[], time))
  {
    ClarkTags(uri, "condition", "units", "pubDate");
    FindAt(item, Clark(uri, "condition"), 0);
    FindAt(item, "pubDate", 1);
  }
}

=== FILE: format.dfy ===
/** The rewrite that `WeatherData.setFormat` applies to a user format before
    handing it to `string.Template` (weather.py:55-57), and a reading of the
    user's `%` directives taken directly off the user's text, proved to agree
    with substituting the rewritten template. */
module Format {
  import opened Results
  import opened Chars
  import opened Template

  /** `s.replace('$', '$$')`: every `$` doubled, every other character kept
      as many times as it occurs. */
  function EscapeDollars(s: string): (r: string)
    ensures |r| == |s| + Count(s, '$')
    ensures Count(r, '$') == 2 * Count(s, '$')
    ensures forall c :: c != '$' ==> Count(r, c) == Count(s, c)
    ensures '%' in r <==> '%' in s
  {
    if |s| == 0 then ""
    else
      var h := if s[0] == '$' then "$$" else s[..1];
      var t := EscapeDollars(s[1..]);
      forall c ensures Count(h + t, c) == Count(h, c) + Count(t, c) {
        CountAppend(h, t, c);
      }
      h + t
  }

  /** `s.replace('%', '$')`. */
  function PercentsToDollars(s: string): (r: string)
    ensures |r| == |s|
    ensures forall i :: 0 <= i < |s| ==> r[i] == (if s[i] == '%' then '$' else s[i])
  {
    if |s| == 0 then ""
    else [if s[0] == '%' then '$' else s[0]] + PercentsToDollars(s[1..])
  }

  /** The template text `setFormat` builds from a user format: every `$`
      doubled, then every `%` turned into the delimiter `$`. */
  function Rewrite(fmt: string): (r: string)
    ensures '%' !in r
    ensures |r| == |fmt| + Count(fmt, '$')
  {
    PercentsToDollars(EscapeDollars(fmt))
  }

  /** A character that the rewrite leaves alone. */
  predicate IsPlain(c: char) {
    c != '$' && c != '%'
  }

  /** What the rewrite makes of one character of the user format. */
  function Spell(c: char): string {
    if c == '$' then "$$" else if c == '%' then "$" else [c]
  }

  /** The rewrite done in one pass, character by character. */
  function Spelled(fmt: string): string {
    if |fmt| == 0 then "" else Spell(fmt[0]) + Spelled(fmt[1..])
  }

  lemma {:induction false} EscapeDollarsAppend(a: string, b: string)
    ensures EscapeDollars(a + b) == EscapeDollars(a) + EscapeDollars(b)
    decreases |a|
  {
    if |a| == 0 {
      assert a + b == b;
    } else {
      assert (a + b)[1..] == a[1..] + b;
      assert (a + b)[..1] == a[..1];
      EscapeDollarsAppend(a[1..], b);
      var h := if a[0] == '$' then "$$" else a[..1];
      var x, y := EscapeDollars(a[1..]), EscapeDollars(b);
      assert EscapeDollars(a + b) == h + (x + y);
      assert h + (x + y) == (h + x) + y;
    }
  }

  lemma PercentsToDollarsAppend(a: string, b: string)
    ensures PercentsToDollars(a + b) == PercentsToDollars(a) + PercentsToDollars(b)
  {
    var l, r, x := PercentsToDollars(a + b), PercentsToDollars(a), PercentsToDollars(b);
    assert forall i :: 0 <= i < |l| ==> l[i] == (r + x)[i] by {
      forall i | 0 <= i < |l| ensures l[i] == (r + x)[i] {
        if i < |a| {
          assert (a + b)[i] == a[i];
        } else {
          assert (a + b)[i] == b[i - |a|];
        }
      }
    }
  }

  lemma RewriteChar(c: char)
    ensures Rewrite([c]) == Spell(c)
  {
    assert [c][1..] == "";
    assert [c][..1] == [c];
    if c == '$' {
      assert EscapeDollars([c]) == "$$";
      assert PercentsToDollars("$$")[0] == '$';
      assert PercentsToDollars("$$")[1] == '$';
    } else {
      assert EscapeDollars([c]) == [c];
    }
  }

  /** The two replacements of `setFormat` amount to spelling out each
      character of the user format on its own. */
  lemma {:induction false} RewriteIsSpelled(fmt: string)
    ensures Rewrite(fmt) == Spelled(fmt)
    decreases |fmt|
  {
    if |fmt| > 0 {
      assert fmt == [fmt[0]] + fmt[1..];
      EscapeDollarsAppend([fmt[0]], fmt[1..]);
      PercentsToDollarsAppend(EscapeDollars([fmt[0]]), EscapeDollars(fmt[1..]));
      RewriteChar(fmt[0]);
      RewriteIsSpelled(fmt[1..]);
    }
  }

  lemma {:induction false} SpelledAppend(a: string, b: string)
    ensures Spelled(a + b) == Spelled(a) + Spelled(b)
    decreases |a|
  {
    if |a| == 0 {
      assert a + b == b;
    } else {
      assert (a + b)[1..] == a[1..] + b;
      SpelledAppend(a[1..], b);
    }
  }

  /** Text without `$` keeps its length, each `%` turning into `$`. */
  lemma {:induction false} SpelledNoDollar(s: string)
    requires '$' !in s
    ensures |Spelled(s)| == |s|
    ensures forall i :: 0 <= i < |s| ==> Spelled(s)[i] == (if s[i] == '%' then '$' else s[i])
    decreases |s|
  {
    if |s| > 0 {
      assert s[0] in s;
      assert forall i :: 1 <= i < |s| ==> s[i] == s[1..][i - 1];
      SpelledNoDollar(s[1..]);
    }
  }

  /** The rewrite of a `$`-free format, checked character by character. */
  lemma RewriteNoDollar(fmt: string, t: string)
    requires '$' !in fmt && |t| == |fmt|
    requires forall i :: 0 <= i < |fmt| ==> t[i] == (if fmt[i] == '%' then '$' else fmt[i])
    ensures Rewrite(fmt) == t
  {
    RewriteIsSpelled(fmt);
    SpelledNoDollar(fmt);
  }

  /** Text without `$` and `%` is left as it is. */
  lemma {:induction false} SpelledPlain(x: string)
    requires forall i :: 0 <= i < |x| ==> IsPlain(x[i])
    ensures Spelled(x) == x
    decreases |x|
  {
    if |x| > 0 {
      SpelledPlain(x[1..]);
    }
  }

  /** The rewrite of a non-empty text begins with `$` exactly when the
      text begins with `$` or `%`, and otherwise with the same character. */
  lemma SpelledHead(s: string)
    requires |s| > 0
    ensures |Spelled(s)| > 0
    ensures Spelled(s)[0] == (if IsPlain(s[0]) then s[0] else '$')
  {
  }

  /** A prefix the rewrite leaves alone is copied to the template unchanged. */
  lemma {:induction false} PlainPrefix(fmt: string, k: nat)
    requires k <= |fmt|
    requires forall i :: 0 <= i < k ==> IsPlain(fmt[i])
    ensures Spelled(fmt) == fmt[..k] + Spelled(fmt[k..])
  {
    assert fmt == fmt[..k] + fmt[k..];
    SpelledAppend(fmt[..k], fmt[k..]);
    SpelledPlain(fmt[..k]);
  }

  /** The rendering of a user format read directly off the user's text:
      ordinary characters and `$` stand for themselves, and each `%` opens a
      directive. `base` is the offset in the rewritten template at which the
      rewrite of `fmt` begins, so that invalid placeholders are reported at
      the same offset as the template substitution reports them. */
  function ReadText(fmt: string, base: nat, m: map<string, string>): Rendering
    decreases |fmt|, 1
  {
    if |fmt| == 0 then Ok("")
    else if fmt[0] == '%' then ReadDirective(fmt[1..], base + 1, m)
    else if fmt[0] == '$' then Prepend("$", ReadText(fmt[1..], base + 2, m))
    else Prepend(fmt[..1], ReadText(fmt[1..], base + 1, m))
  }

  /** The user text `s` that follows a directive-opening `%`:
      - `%%` yields a `$` (not a `%`);
      - `%$` yields a `$`, and the user's `$` then opens a directive itself;
      - `%name` and `%{name}` look `name` up in the mapping;
      - anything else, the end of the text included, is an invalid placeholder. */
  function ReadDirective(s: string, base: nat, m: map<string, string>): Rendering
    decreases |s|, 0
  {
    if |s| == 0 then Err(InvalidPlaceholder(base))
    else if s[0] == '%' then Prepend("$", ReadText(s[1..], base + 1, m))
    else if s[0] == '$' then Prepend("$", ReadDirective(s[1..], base + 2, m))
    else if NameLength(s) > 0 then
      var n := NameLength(s);
      Lookup(s[..n], m, ReadText(s[n..], base + n, m))
    else if BracedLength(s) > 0 then
      var n := BracedLength(s);
      Lookup(s[1..n - 1], m, ReadText(s[n..], base + n, m))
    else Err(InvalidPlaceholder(base))
  }

  /** Rewriting a user format and substituting the result is the same as
      reading the directives off the user format directly: this is what a
      user format means once `setFormat` and `__str__` have dealt with it. */
  lemma RewriteAgrees(fmt: string, m: map<string, string>)
    ensures Substitute(Rewrite(fmt), m) == ReadText(fmt, 0, m)
  {
    RewriteIsSpelled(fmt);
    SpelledAgrees(fmt, 0, m);
  }

  /** `RewriteAgrees` at every offset, for text and for what follows a delimiter. */
  lemma {:induction false} SpelledAgrees(fmt: string, base: nat, m: map<string, string>)
    ensures SubstituteAt(Spelled(fmt), base, m) == ReadText(fmt, base, m)
    ensures Placeholder(Spelled(fmt), base, m) == ReadDirective(fmt, base, m)
    decreases |fmt|, 2
  {
    if |fmt| == 0 {
      return;
    }
    var s := fmt[1..];
    if fmt[0] == '%' {
      SpelledAgrees(s, base + 1, m);
      PercentAgrees(fmt, base, m);
    } else if fmt[0] == '$' {
      SpelledAgrees(s, base + 2, m);
      DollarAgrees(fmt, base, m);
    } else {
      SpelledAgrees(s, base + 1, m);
      PlainAgrees(fmt, base, m);
      PlaceholderAgrees(fmt, base, m);
    }
  }

  lemma {:induction false} PercentAgrees(fmt: string, base: nat, m: map<string, string>)
    requires |fmt| > 0 && fmt[0] == '%'
    requires Spelled(fmt) == "$" + Spelled(fmt[1..])
    requires Placeholder(Spelled(fmt[1..]), base + 1, m) == ReadDirective(fmt[1..], base + 1, m)
    requires SubstituteAt(Spelled(fmt[1..]), base + 1, m) == ReadText(fmt[1..], base + 1, m)
    ensures SubstituteAt(Spelled(fmt), base, m) == ReadText(fmt, base, m)
    ensures Placeholder(Spelled(fmt), base, m) == ReadDirective(fmt, base, m)
  {
    var t := Spelled(fmt);
    assert t[1..] == Spelled(fmt[1..]);
  }

  lemma {:induction false} DollarAgrees(fmt: string, base: nat, m: map<string, string>)
    requires |fmt| > 0 && fmt[0] == '$'
    requires Spelled(fmt) == "$$" + Spelled(fmt[1..])
    requires SubstituteAt(Spelled(fmt[1..]), base + 2, m) == ReadText(fmt[1..], base + 2, m)
    requires Placeholder(Spelled(fmt[1..]), base + 2, m) == ReadDirective(fmt[1..], base + 2, m)
    ensures SubstituteAt(Spelled(fmt), base, m) == ReadText(fmt, base, m)
    ensures Placeholder(Spelled(fmt), base, m) == ReadDirective(fmt, base, m)
  {
    var t, r := Spelled(fmt), Spelled(fmt[1..]);
    assert t[1..] == "$" + r;
    assert ("$" + r)[1..] == r;
  }

  lemma {:induction false} PlainAgrees(fmt: string, base: nat, m: map<string, string>)
    requires |fmt| > 0 && IsPlain(fmt[0])
    requires Spelled(fmt) == [fmt[0]] + Spelled(fmt[1..])
    requires SubstituteAt(Spelled(fmt[1..]), base + 1, m) == ReadText(fmt[1..], base + 1, m)
    ensures SubstituteAt(Spelled(fmt), base, m) == ReadText(fmt, base, m)
  {
    var t := Spelled(fmt);
    assert t[..1] == fmt[..1];
    assert t[1..] == Spelled(fmt[1..]);
  }

  /** The directive case of `SpelledAgrees` for a text beginning with a
      character the rewrite leaves alone. */
  lemma {:induction false} PlaceholderAgrees(fmt: string, base: nat, m: map<string, string>)
    requires |fmt| > 0 && IsPlain(fmt[0])
    ensures Placeholder(Spelled(fmt), base, m) == ReadDirective(fmt, base, m)
    decreases |fmt|, 1
  {
    if NameLength(fmt) > 0 {
      NameSpelled(fmt);
      NameCase(fmt, Spelled(fmt), base, m);
    } else if fmt[0] == '{' {
      var b := BracedSpelled(fmt);
      if b > 0 {
        BracedCase(fmt, Spelled(fmt), b, base, m);
      } else {
        UnbracedAgrees(fmt, base, m);
      }
    } else {
      SpelledHead(fmt);
      OtherAgrees(fmt, base, m);
    }
  }

  lemma {:induction false} NameCase(fmt: string, t: string, base: nat, m: map<string, string>)
    requires NameLength(fmt) > 0 && IsPlain(fmt[0])
    requires NameLength(t) == NameLength(fmt)
    requires t[..NameLength(fmt)] == fmt[..NameLength(fmt)]
    requires t[NameLength(fmt)..] == Spelled(fmt[NameLength(fmt)..])
    ensures Placeholder(t, base, m) == ReadDirective(fmt, base, m)
    decreases |fmt|, 0
  {
    var n := NameLength(fmt);
    SpelledAgrees(fmt[n..], base + n, m);
    NameAgrees(fmt, t, t[n..], base, m);
  }

  lemma {:induction false} BracedCase(fmt: string, t: string, b: nat, base: nat, m: map<string, string>)
    requires |fmt| > 0 && fmt[0] == '{' && |t| > 0 && t[0] == '{'
    requires 0 < b == BracedLength(fmt) == BracedLength(t)
    requires t[1..b - 1] == fmt[1..b - 1] && t[b..] == Spelled(fmt[b..])
    ensures Placeholder(t, base, m) == ReadDirective(fmt, base, m)
    decreases |fmt|, 0
  {
    SpelledAgrees(fmt[b..], base + b, m);
    BracedJoin(t, fmt, b, base, m);
  }

  /** An identifier at the head of the user text is copied into the template
      and read there as the same identifier. */
  lemma {:induction false} NameSpelled(fmt: string)
    requires NameLength(fmt) > 0
    ensures NameLength(Spelled(fmt)) == NameLength(fmt)
    ensures Spelled(fmt)[..NameLength(fmt)] == fmt[..NameLength(fmt)]
    ensures Spelled(fmt)[NameLength(fmt)..] == Spelled(fmt[NameLength(fmt)..])
  {
    var n := NameLength(fmt);
    forall i | 0 <= i < n
      ensures IsPlain(fmt[i])
    {
      assert fmt[i] == fmt[..n][i];
    }
    PlainPrefix(fmt, n);
    if n < |fmt| {
      SpelledHead(fmt[n..]);
    }
    NameLengthStable(fmt[..n], Spelled(fmt[n..]));
  }

  /** A braced placeholder at the head of the user text is copied into the
      template and read there as the same braced placeholder; the result is
      its length, 0 when there is none in either. */
  lemma {:induction false} BracedSpelled(fmt: string) returns (b: nat)
    requires |fmt| > 0 && fmt[0] == '{'
    ensures b == BracedLength(fmt) == BracedLength(Spelled(fmt))
    ensures b > 0 ==> Spelled(fmt)[0] == '{' && Spelled(fmt)[1..b - 1] == fmt[1..b - 1]
                      && Spelled(fmt)[b..] == Spelled(fmt[b..])
  {
    BracedLengthSpelled(fmt);
    b := BracedLength(fmt);
    if b > 0 {
      BracedPartsSpelled(fmt, b);
    }
  }

  /** The rewrite neither makes nor breaks a braced name. */
  lemma {:induction false} BracedLengthSpelled(fmt: string)
    requires |fmt| > 0 && fmt[0] == '{'
    ensures BracedLength(fmt) == BracedLength(Spelled(fmt))
  {
    var s := fmt[1..];
    var t := Spelled(fmt);
    assert t == "{" + Spelled(s);
    assert t[1..] == Spelled(s);
    var k := NameLength(s);
    if k > 0 {
      NameSpelled(s);
      assert NameLength(t[1..]) == k;
      if k < |s| {
        SpelledHead(s[k..]);
        assert t[1 + k] == Spelled(s[k..])[0];
        assert (t[1 + k] == '}') == (s[k] == '}');
      } else {
        assert s[k..] == [];
        assert |t| == 1 + k;
      }
    } else {
      if |s| > 0 {
        SpelledHead(s);
      }
      assert NameLength(t[1..]) == 0;
    }
  }

  /** Inside and after a braced name, the rewrite copies the name and
      carries on with the rest. */
  lemma {:induction false} BracedPartsSpelled(fmt: string, b: nat)
    requires |fmt| > 0 && fmt[0] == '{' && 0 < b == BracedLength(fmt)
    ensures b <= |Spelled(fmt)|
    ensures Spelled(fmt)[0] == '{' && Spelled(fmt)[1..b - 1] == fmt[1..b - 1]
            && Spelled(fmt)[b..] == Spelled(fmt[b..])
  {
    forall i | 0 <= i < b
      ensures IsPlain(fmt[i])
    {
      if 0 < i < b - 1 {
        assert fmt[i] == fmt[1..b - 1][i - 1];
      }
    }
    PlainPrefix(fmt, b);
    var t := Spelled(fmt);
    var a := fmt[..b];
    var x := Spelled(fmt[b..]);
    assert t == a + x;
    AppendSlices(a, x, 1, b - 1);
    TakeSlice(fmt, b, 1, b - 1);
    DropFront(a, x);
    assert t[0] == a[0];
  }

  lemma TakeSlice(s: string, b: nat, i: nat, j: nat)
    requires i <= j <= b <= |s|
    ensures s[..b][i..j] == s[i..j]
  {
  }

  lemma DropFront(a: string, x: string)
    ensures (a + x)[|a|..] == x
  {
  }

  lemma {:induction false} NameAgrees(fmt: string, t: string, r: string, base: nat, m: map<string, string>)
    requires NameLength(fmt) > 0 && IsPlain(fmt[0])
    requires NameLength(t) == NameLength(fmt)
    requires t[..NameLength(fmt)] == fmt[..NameLength(fmt)] && t[NameLength(fmt)..] == r
    requires SubstituteAt(r, base + NameLength(fmt), m) == ReadText(fmt[NameLength(fmt)..], base + NameLength(fmt), m)
    ensures Placeholder(t, base, m) == ReadDirective(fmt, base, m)
  {
    var n := NameLength(fmt);
    calc {
      Placeholder(t, base, m);
    == { PlaceholderName(t, n, base, m); }
      Lookup(t[..n], m, SubstituteAt(r, base + n, m));
    ==
      Lookup(fmt[..n], m, ReadText(fmt[n..], base + n, m));
    == { DirectiveName(fmt, n, base, m); }
      ReadDirective(fmt, base, m);
    }
  }

  /** One step of `Placeholder` over an identifier. */
  lemma PlaceholderName(t: string, n: nat, base: nat, m: map<string, string>)
    requires 0 < n == NameLength(t)
    ensures Placeholder(t, base, m) == Lookup(t[..n], m, SubstituteAt(t[n..], base + n, m))
  {
  }

  /** One step of `ReadDirective` over an identifier. */
  lemma DirectiveName(fmt: string, n: nat, base: nat, m: map<string, string>)
    requires 0 < n == NameLength(fmt)
    ensures ReadDirective(fmt, base, m) == Lookup(fmt[..n], m, ReadText(fmt[n..], base + n, m))
  {
  }

  lemma ConcatAssoc(a: string, b: string, c: string)
    ensures a + b + c == a + (b + c)
  {
  }

  /** Text in front of a failed reading does not change the error. */
  lemma PrependErr(a: Rendering, v: string, r: Rendering)
    requires r.Err? && a == Prepend(v, r)
    ensures a == r
  {
  }

  /** A braced placeholder read by each reader, where the two readings after
      it agree, reads the same. */
  lemma BracedJoin(t: string, fmt: string, b: nat, base: nat, m: map<string, string>)
    requires |t| > 0 && t[0] == '{' && |fmt| > 0 && fmt[0] == '{'
    requires 0 < b == BracedLength(t) == BracedLength(fmt)
    requires t[1..b - 1] == fmt[1..b - 1]
    requires SubstituteAt(t[b..], base + b, m) == ReadText(fmt[b..], base + b, m)
    ensures Placeholder(t, base, m) == ReadDirective(fmt, base, m)
  {
    PlaceholderBraced(t, b, base, m);
    DirectiveBraced(fmt, b, base, m);
  }

  lemma PlaceholderBraced(t: string, b: nat, base: nat, m: map<string, string>)
    requires |t| > 0 && t[0] == '{' && 0 < b == BracedLength(t)
    ensures Placeholder(t, base, m) == Lookup(t[1..b - 1], m, SubstituteAt(t[b..], base + b, m))
  {
    assert NameLength(t) == 0;
  }

  lemma DirectiveBraced(fmt: string, b: nat, base: nat, m: map<string, string>)
    requires |fmt| > 0 && fmt[0] == '{' && 0 < b == BracedLength(fmt)
    ensures ReadDirective(fmt, base, m) == Lookup(fmt[1..b - 1], m, ReadText(fmt[b..], base + b, m))
  {
    assert NameLength(fmt) == 0;
  }

  lemma {:induction false} UnbracedAgrees(fmt: string, base: nat, m: map<string, string>)
    requires |fmt| > 0 && fmt[0] == '{'
    requires BracedLength(fmt) == 0 == BracedLength(Spelled(fmt))
    ensures Placeholder(Spelled(fmt), base, m) == ReadDirective(fmt, base, m)
  {
    SpelledHead(fmt);
  }

  lemma {:induction false} OtherAgrees(fmt: string, base: nat, m: map<string, string>)
    requires |fmt| > 0 && IsPlain(fmt[0]) && fmt[0] != '{' && !IsNameStart(fmt[0])
    requires |Spelled(fmt)| > 0 && Spelled(fmt)[0] == fmt[0]
    ensures Placeholder(Spelled(fmt), base, m) == ReadDirective(fmt, base, m)
  {
  }


  /** Text without `%` reads as itself: each `$` stands for one `$`. */
  lemma {:induction false} ReadLiteral(lit: string, rest: string, base: nat, m: map<string, string>)
    requires '%' !in lit
    ensures ReadText(lit + rest, base, m)
            == Prepend(lit, ReadText(rest, base + |lit| + Count(lit, '$'), m))
    decreases |lit|
  {
    if |lit| == 0 {
      assert lit + rest == rest;
      match ReadText(rest, base, m) {
        case Ok(v) => assert lit + v == v;
        case Err(_) =>
      }
    } else {
      var s := lit[1..];
      assert (lit + rest)[1..] == s + rest;
      assert lit[0] in lit;
      var k := if lit[0] == '$' then 2 else 1;
      ReadLiteral(s, rest, base + k, m);
      var tail := ReadText(rest, base + |lit| + Count(lit, '$'), m);
      ReadLiteralStep(lit, rest, base, m);
      PrependTwice(lit[..1], s, tail);
      assert lit == lit[..1] + s;
    }
  }

  lemma ReadLiteralStep(lit: string, rest: string, base: nat, m: map<string, string>)
    requires |lit| > 0 && lit[0] != '%'
    ensures ReadText(lit + rest, base, m)
            == Prepend(lit[..1], ReadText(lit[1..] + rest, base + (if lit[0] == '$' then 2 else 1), m))
    ensures Count(lit, '$') == (if lit[0] == '$' then 1 else 0) + Count(lit[1..], '$')
  {
    assert (lit + rest)[1..] == lit[1..] + rest;
    assert (lit + rest)[..1] == lit[..1] == [lit[0]];
  }

  lemma ReadVerbatim(fmt: string, base: nat, m: map<string, string>)
    requires '%' !in fmt
    ensures ReadText(fmt, base, m) == Ok(fmt)
  {
    ReadLiteral(fmt, "", base, m);
    assert fmt + "" == fmt;
  }

  /** `%name`, ended by a non-word character or by the end of the text, looks
      up `name` and carries on after it. */
  lemma ReadName(name: string, rest: string, base: nat, m: map<string, string>)
    requires IsIdentifier(name)
    requires |rest| == 0 || !IsWordChar(rest[0])
    ensures ReadText("%" + name + rest, base, m)
            == Lookup(name, m, ReadText(rest, base + 1 + |name|, m))
  {
    var s := name + rest;
    assert ("%" + name + rest)[1..] == s;
    NameLengthStable(name, rest);
    assert s[..|name|] == name && s[|name|..] == rest;
  }

  /** After a directive-opening `%` (or a `$` it swallowed), a name ended by
      a non-word character or by the end of the text is looked up. */
  lemma ReadDirectiveName(name: string, rest: string, base: nat, m: map<string, string>)
    requires IsIdentifier(name)
    requires |rest| == 0 || !IsWordChar(rest[0])
    ensures ReadDirective(name + rest, base, m) == Lookup(name, m, ReadText(rest, base + |name|, m))
  {
    var s := name + rest;
    NameLengthStable(name, rest);
    assert s[..|name|] == name && s[|name|..] == rest;
  }

  /** `%%` yields one `$`. */
  lemma ReadPercentPercent(rest: string, base: nat, m: map<string, string>)
    ensures ReadText("%%" + rest, base, m) == Prepend("$", ReadText(rest, base + 2, m))
  {
    assert ("%%" + rest)[1..] == "%" + rest;
    assert ("%" + rest)[1..] == rest;
  }

  /** `%$` yields one `$`, and the user's `$` opens a directive of its own. */
  lemma ReadPercentDollar(rest: string, base: nat, m: map<string, string>)
    ensures ReadText("%$" + rest, base, m) == Prepend("$", ReadDirective(rest, base + 3, m))
  {
    assert ("%$" + rest)[1..] == "$" + rest;
    assert ("$" + rest)[1..] == rest;
  }

  /** A `%` followed by the end of the text, or by a character that is not an
      identifier start, `%`, `$` or a well-formed `{name}`, is an invalid
      placeholder just after the delimiter. */
  lemma ReadInvalid(rest: string, base: nat, m: map<string, string>)
    requires |rest| == 0 || (!IsNameStart(rest[0]) && IsPlain(rest[0]) && BracedLength(rest) == 0)
    ensures ReadText("%" + rest, base, m) == Err(InvalidPlaceholder(base + 1))
  {
    assert ("%" + rest)[1..] == rest;
  }

  /** `%%` between two stretches of text without `%` reads as one `$`. */
  lemma ReadEscapedPercent(pre: string, post: string, m: map<string, string>)
    requires '%' !in pre && '%' !in post
    ensures ReadText(pre + "%%" + post, 0, m) == Ok(pre + "$" + post)
  {
    var b := |pre| + Count(pre, '$');
    assert pre + "%%" + post == pre + ("%%" + post);
    ReadLiteral(pre, "%%" + post, 0, m);
    ReadPercentPercent(post, b, m);
    ReadVerbatim(post, b + 2, m);
    assert pre + ("$" + post) == pre + "$" + post;
  }

  /** `%$name` reads as a `$` followed by the value of `name`. */
  lemma ReadDollarName(k: string, post: string, m: map<string, string>)
    requires IsIdentifier(k) && k in m && '%' !in post
    requires |post| == 0 || !IsWordChar(post[0])
    ensures ReadText("%$" + k + post, 0, m) == Ok("$" + m[k] + post)
  {
    assert "%$" + k + post == "%$" + (k + post);
    ReadPercentDollar(k + post, 0, m);
    ReadDirectiveName(k, post, 3, m);
    ReadVerbatim(post, 3 + |k|, m);
    assert "$" + (m[k] + post) == "$" + m[k] + post;
  }

  /** Reading splits at a `%`: text that reads successfully, followed by
      more text that starts with a `%`, reads as its own result followed by
      whatever the rest reads as. The rest starts at the offset the first
      part was rewritten to, so errors in it keep their template offsets. */
  lemma {:induction false} ReadThen(pre: string, rest: string, base: nat, m: map<string, string>)
    requires ReadText(pre, base, m).Ok? && |rest| > 0 && rest[0] == '%'
    ensures ReadText(pre + rest, base, m)
            == Prepend(ReadText(pre, base, m).value, ReadText(rest, base + |pre| + Count(pre, '$'), m))
    decreases |pre|, 1
  {
    if |pre| == 0 {
      assert pre + rest == rest;
      PrependEmpty(ReadText(rest, base, m));
    } else {
      AppendSlices(pre, rest, 1, 1);
      assert (pre + rest)[0] == pre[0];
      if pre[0] == '%' {
        DirectiveThen(pre[1..], rest, base + 1, m);
      } else if pre[0] == '$' {
        ReadThen(pre[1..], rest, base + 2, m);
        PrependTwice("$", ReadText(pre[1..], base + 2, m).value, ReadText(rest, base + |pre| + Count(pre, '$'), m));
      } else {
        ReadThen(pre[1..], rest, base + 1, m);
        PrependTwice(pre[..1], ReadText(pre[1..], base + 1, m).value, ReadText(rest, base + |pre| + Count(pre, '$'), m));
      }
    }
  }

  /** The same split for what follows a directive-opening `%`. */
  lemma {:induction false} DirectiveThen(s: string, rest: string, base: nat, m: map<string, string>)
    requires ReadDirective(s, base, m).Ok? && |rest| > 0 && rest[0] == '%'
    ensures ReadDirective(s + rest, base, m)
            == Prepend(ReadDirective(s, base, m).value, ReadText(rest, base + |s| + Count(s, '$'), m))
    decreases |s|, 1
  {
    if |s| == 0 {
      assert false;
    } else {
      AppendSlices(s, rest, 1, 1);
      assert (s + rest)[0] == s[0];
      if s[0] == '%' {
        ReadThen(s[1..], rest, base + 1, m);
        PrependTwice("$", ReadText(s[1..], base + 1, m).value, ReadText(rest, base + |s| + Count(s, '$'), m));
      } else if s[0] == '$' {
        DirectiveThen(s[1..], rest, base + 2, m);
        PrependTwice("$", ReadDirective(s[1..], base + 2, m).value, ReadText(rest, base + |s| + Count(s, '$'), m));
      } else if NameLength(s) > 0 {
        var n := NameLength(s);
        DirectiveName(s, n, base, m);
        NameAppend(s, rest, n);
        NameThen(s + rest, s, rest, base, m, n);
      } else {
        var n := BracedLength(s);
        assert n > 0;
        DirectiveBraced(s, n, base, m);
        BracedAppend(s, rest, n);
        BracedThen(s + rest, s, rest, base, m, n);
      }
    }
  }

  /** The split after a `%` that opens a name: `t` is `s` followed by
      `rest`, and the name ends inside `s`. */
  lemma {:induction false} NameThen(t: string, s: string, rest: string, base: nat, m: map<string, string>, n: nat)
    requires 0 < n == NameLength(t) && n <= |s| && t[..n] in m
    requires t[n..] == s[n..] + rest && Count(s, '$') == Count(s[n..], '$')
    requires ReadText(s[n..], base + n, m).Ok? && |rest| > 0 && rest[0] == '%'
    ensures ReadDirective(t, base, m)
            == Prepend(m[t[..n]] + ReadText(s[n..], base + n, m).value,
                       ReadText(rest, base + |s| + Count(s, '$'), m))
    decreases |s|, 0
  {
    var r := ReadText(s[n..], base + n, m);
    var x := ReadText(rest, base + |s| + Count(s, '$'), m);
    DirectiveName(t, n, base, m);
    TailThen(t[n..], s[n..], rest, base + n, base + |s| + Count(s, '$'), m);
    LookupSplit(ReadDirective(t, base, m), t[..n], m, ReadText(t[n..], base + n, m), r, x);
  }

  /** What `s + rest` shares with `s` when `s` begins with a name that
      `rest` cannot lengthen. */
  lemma NameAppend(s: string, rest: string, n: nat)
    requires 0 < n == NameLength(s) && |rest| > 0 && rest[0] == '%'
    ensures NameLength(s + rest) == n
    ensures (s + rest)[..n] == s[..n] && (s + rest)[n..] == s[n..] + rest
    ensures Count(s, '$') == Count(s[n..], '$')
  {
    NameLengthExtend(s, rest);
    AppendSlices(s, rest, 0, n);
    IdentifierNoDollar(s[..n]);
    DollarFreeHead(s, n);
  }

  /** The split after a `%` that opens a braced name: `t` is `s` followed
      by `rest`, and the braced name ends inside `s`. */
  lemma {:induction false} BracedThen(t: string, s: string, rest: string, base: nat, m: map<string, string>, n: nat)
    requires |t| > 0 && t[0] == '{' && 0 < n == BracedLength(t) && n <= |s| && t[1..n - 1] in m
    requires t[n..] == s[n..] + rest && Count(s, '$') == Count(s[n..], '$')
    requires ReadText(s[n..], base + n, m).Ok? && |rest| > 0 && rest[0] == '%'
    ensures ReadDirective(t, base, m)
            == Prepend(m[t[1..n - 1]] + ReadText(s[n..], base + n, m).value,
                       ReadText(rest, base + |s| + Count(s, '$'), m))
    decreases |s|, 0
  {
    var r := ReadText(s[n..], base + n, m);
    var x := ReadText(rest, base + |s| + Count(s, '$'), m);
    DirectiveBraced(t, n, base, m);
    TailThen(t[n..], s[n..], rest, base + n, base + |s| + Count(s, '$'), m);
    LookupSplit(ReadDirective(t, base, m), t[1..n - 1], m, ReadText(t[n..], base + n, m), r, x);
  }

  /** `ReadThen` for a text `u` spelled as `pre + rest`, with the offset
      of `rest` given as `b`. */
  lemma {:induction false} TailThen(u: string, pre: string, rest: string, base: nat, b: nat, m: map<string, string>)
    requires u == pre + rest && b == base + |pre| + Count(pre, '$')
    requires ReadText(pre, base, m).Ok? && |rest| > 0 && rest[0] == '%'
    ensures ReadText(u, base, m) == Prepend(ReadText(pre, base, m).value, ReadText(rest, b, m))
    decreases |pre|, 2
  {
    ReadThen(pre, rest, base, m);
  }

  /** What `s + rest` shares with `s` when `s` begins with a braced name. */
  lemma BracedAppend(s: string, rest: string, n: nat)
    requires 0 < n == BracedLength(s)
    ensures |s + rest| > 0 && (s + rest)[0] == '{' && BracedLength(s + rest) == n
    ensures (s + rest)[1..n - 1] == s[1..n - 1] && (s + rest)[n..] == s[n..] + rest
    ensures Count(s, '$') == Count(s[n..], '$')
  {
    BracedLengthExtend(s, rest);
    AppendSlices(s, rest, 1, n - 1);
    AppendSlices(s, rest, n, n);
    BracedHead(s, n);
  }

  /** Slices of `s + rest` that end inside `s`, and the tail from inside `s`. */
  lemma AppendSlices(s: string, rest: string, i: nat, j: nat)
    requires i <= j <= |s|
    ensures (s + rest)[i..j] == s[i..j] && (s + rest)[..j] == s[..j]
    ensures (s + rest)[j..] == s[j..] + rest
  {
  }

  /** A lookup of a known name in front of a reading that was split. */
  lemma LookupSplit(a: Rendering, k: string, m: map<string, string>, l: Rendering, r: Rendering, x: Rendering)
    requires r.Ok? && k in m && a == Lookup(k, m, l) && l == Prepend(r.value, x)
    ensures a == Prepend(m[k] + r.value, x)
  {
    PrependTwice(m[k], r.value, x);
  }

  /** A braced name at the head of `s` holds no `$`. */
  lemma BracedHead(s: string, n: nat)
    requires 0 < n == BracedLength(s)
    ensures Count(s, '$') == Count(s[n..], '$')
  {
    var k := s[1..n - 1];
    IdentifierNoDollar(k);
    assert s[..n] == "{" + k + "}";
    assert '$' !in s[..n] by {
      forall i | 0 <= i < n ensures s[..n][i] != '$' {
        if 0 < i < n - 1 {
          assert s[..n][i] == k[i - 1];
        }
      }
    }
    DollarFreeHead(s, n);
  }

  /** An identifier holds no `$`. */
  lemma IdentifierNoDollar(x: string)
    requires IsIdentifier(x)
    ensures '$' !in x
  {
    forall i | 0 <= i < |x| ensures x[i] != '$' {
      assert IsWordChar(x[i]);
    }
  }

  /** A head of `s` without `$` leaves the count of `$` to the rest. */
  lemma DollarFreeHead(s: string, n: nat)
    requires n <= |s| && '$' !in s[..n]
    ensures Count(s, '$') == Count(s[n..], '$')
  {
    assert s == s[..n] + s[n..];
    CountAppend(s[..n], s[n..], '$');
  }

  /** A `%` followed by a name the mapping lacks is the error, whatever
      successfully read text stands in front of it. */
  lemma ReadUnknownName(pre: string, name: string, post: string, m: map<string, string>, fmt: string)
    requires ReadText(pre, 0, m).Ok? && IsIdentifier(name) && name !in m
    requires |post| == 0 || !IsWordChar(post[0])
    requires fmt == pre + "%" + name + post
    ensures ReadText(fmt, 0, m) == Err(MissingKey(name))
  {
    var b := |pre| + Count(pre, '$');
    var rest := "%" + name + post;
    assert ReadText(rest, b, m) == Err(MissingKey(name)) by {
      ReadName(name, post, b, m);
    }
    assert fmt == pre + rest;
    ReadThen(pre, rest, 0, m);
  }

  /** An offset counted over `pre` and its `$` characters is the offset past `Rewrite(pre)`. */
  lemma InvalidPastRewrite(r: Rendering, pre: string)
    requires r == Err(InvalidPlaceholder(|pre| + Count(pre, '$') + 1))
    ensures r == Err(InvalidPlaceholder(|Rewrite(pre)| + 1))
  {
  }

  /** A `%` that opens nothing is the error, whatever successfully read text
      stands in front of it; the offset counts the `$` that each `$` of
      `pre` became. */
  lemma ReadInvalidAfter(pre: string, post: string, m: map<string, string>)
    requires ReadText(pre, 0, m).Ok?
    requires |post| == 0 || (!IsNameStart(post[0]) && IsPlain(post[0]) && BracedLength(post) == 0)
    ensures ReadText(pre + "%" + post, 0, m) == Err(InvalidPlaceholder(|pre| + Count(pre, '$') + 1))
  {
    var rest := "%" + post;
    var b := |pre| + Count(pre, '$');
    ConcatAssoc(pre, "%", post);
    ReadInvalid(post, b, m);
    ReadThen(pre, rest, 0, m);
    PrependErr(ReadText(pre + rest, 0, m), ReadText(pre, 0, m).value, ReadText(rest, b, m));
  }

  lemma ReadKnownName(name: string, rest: string, base: nat, m: map<string, string>)
    requires IsIdentifier(name) && name in m
    requires |rest| == 0 || !IsWordChar(rest[0])
    ensures ReadText("%" + name + rest, base, m)
            == Prepend(m[name], ReadText(rest, base + 1 + |name|, m))
  {
    ReadName(name, rest, base, m);
  }

  /** Reading a known directive in front of text that reads as `v`. */
  lemma ReadNameThen(k: string, rest: string, base: nat, m: map<string, string>, v: string)
    requires IsIdentifier(k) && k in m
    requires |rest| == 0 || !IsWordChar(rest[0])
    requires ReadText(rest, base + 1 + |k|, m) == Ok(v)
    ensures ReadText("%" + k + rest, base, m) == Ok(m[k] + v)
  {
    ReadKnownName(k, rest, base, m);
  }

  /** A user format seen as a sequence of literal text and directives. */
  datatype Piece = Text(text: string) | Directive(name: string)

  /** The user format the pieces spell. */
  function Join(ps: seq<Piece>): string {
    if |ps| == 0 then "" else Spelling(ps[0]) + Join(ps[1..])
  }

  /** How one piece is written in a user format. */
  function Spelling(p: Piece): string {
    match p
    case Text(s) => s
    case Directive(k) => "%" + k
  }

  lemma {:induction false} JoinAppend(a: seq<Piece>, b: seq<Piece>)
    ensures Join(a + b) == Join(a) + Join(b)
  {
    if |a| > 0 {
      assert (a + b)[1..] == a[1..] + b;
      JoinAppend(a[1..], b);
      var s := Spelling(a[0]);
      assert Join(a + b) == s + (Join(a[1..]) + Join(b));
      assert s + (Join(a[1..]) + Join(b)) == (s + Join(a[1..])) + Join(b);
    } else {
      assert a + b == b;
    }
  }

  /** What the pieces should render as: text as it stands, directives as
      their values. */
  function Expand(ps: seq<Piece>, m: map<string, string>): string
    requires forall i :: 0 <= i < |ps| && ps[i].Directive? ==> ps[i].name in m
  {
    if |ps| == 0 then ""
    else
      (match ps[0]
       case Text(s) => s
       case Directive(k) => m[k]) + Expand(ps[1..], m)
  }

  lemma {:induction false} ExpandAppend(a: seq<Piece>, b: seq<Piece>, m: map<string, string>)
    requires forall i :: 0 <= i < |a| && a[i].Directive? ==> a[i].name in m
    requires forall i :: 0 <= i < |b| && b[i].Directive? ==> b[i].name in m
    ensures forall i :: 0 <= i < |a + b| && (a + b)[i].Directive? ==> (a + b)[i].name in m
    ensures Expand(a + b, m) == Expand(a, m) + Expand(b, m)
  {
    forall i | 0 <= i < |a + b| && (a + b)[i].Directive? ensures (a + b)[i].name in m {
      if i >= |a| {
        assert (a + b)[i] == b[i - |a|];
      }
    }
    if |a| > 0 {
      assert (a + b)[1..] == a[1..] + b;
      ExpandAppend(a[1..], b, m);
      var s := if a[0].Text? then a[0].text else m[a[0].name];
      assert Expand(a + b, m) == s + (Expand(a[1..], m) + Expand(b, m));
      assert s + (Expand(a[1..], m) + Expand(b, m)) == (s + Expand(a[1..], m)) + Expand(b, m);
    } else {
      assert a + b == b;
    }
  }

  /** Pieces that spell an unambiguous format: text without `%`, directive
      names that are identifiers, and after each directive the end, another
      directive, or text that starts with a non-word character. */
  predicate WellSpaced(ps: seq<Piece>) {
    forall i :: 0 <= i < |ps| ==> SpacedAt(ps, i)
  }

  predicate SpacedAt(ps: seq<Piece>, i: nat)
    requires i < |ps|
  {
    match ps[i]
    case Text(s) => '%' !in s
    case Directive(k) =>
      IsIdentifier(k) &&
      (i + 1 == |ps| || ps[i + 1].Directive? ||
       (|ps[i + 1].text| > 0 && !IsWordChar(ps[i + 1].text[0])))
  }

  /** A well-spaced format renders as the expansion of its pieces. */
  lemma {:induction false} ReadPieces(ps: seq<Piece>, base: nat, m: map<string, string>)
    requires WellSpaced(ps)
    requires forall i :: 0 <= i < |ps| && ps[i].Directive? ==> ps[i].name in m
    ensures ReadText(Join(ps), base, m) == Ok(Expand(ps, m))
    decreases |ps|
  {
    if |ps| > 0 {
      var rest := ps[1..];
      assert SpacedAt(ps, 0);
      assert WellSpaced(rest) by {
        forall i | 0 <= i < |rest| ensures SpacedAt(rest, i) {
          assert SpacedAt(ps, i + 1);
        }
      }
      match ps[0]
      case Text(s) =>
        ReadPieces(rest, base + |s| + Count(s, '$'), m);
        ReadLiteral(s, Join(rest), base, m);
      case Directive(k) =>
        ReadPieces(rest, base + 1 + |k|, m);
        if |rest| > 0 {
          assert Join(rest)[0] == Spelling(rest[0])[0];
        }
        ReadNameThen(k, Join(rest), base, m, Expand(rest, m));
    }
  }
}

=== FILE: namespaces.dfy ===
/** The namespace declarations `parseWeather` collects from the raw feed text
    before parsing it (weather.py:101-105): every match of the pattern
    `xmlns:(\w+)="([^"]+?)"`, found left to right without overlap, folded
    into a prefix map in which a later declaration of a prefix wins. */
module Namespaces {
  import opened Results
  import opened Chars

  /** One match: the prefix group and the URI group. */
  datatype Decl = Decl(prefix: string, uri: string)

  const Opening: string := "xmlns:"

  /** The text a declaration is matched in. */
  function DeclText(d: Decl): string {
    Opening + d.prefix + "=\"" + d.uri + "\""
  }

  /** What the two groups can hold: a non-empty run of word characters and a
      non-empty run of characters other than a double quote. */
  predicate ValidDecl(d: Decl) {
    && |d.prefix| > 0 && (forall i :: 0 <= i < |d.prefix| ==> IsWordChar(d.prefix[i]))
    && |d.uri| > 0 && '"' !in d.uri
  }

  /** Index of the first `c` in `s`, or `|s|` when there is none. */
  function IndexOf(s: string, c: char): (n: nat)
    ensures n <= |s|
    ensures c !in s[..n]
    ensures n < |s| ==> s[n] == c
  {
    if |s| == 0 || s[0] == c then 0
    else
      var n := 1 + IndexOf(s[1..], c);
      assert s[..n] == [s[0]] + s[1..][..n - 1];
      n
  }

  /** `d` is a declaration and `s` starts with its text. */
  predicate Opens(s: string, d: Decl) {
    ValidDecl(d) && |DeclText(d)| <= |s| && s[..|DeclText(d)|] == DeclText(d)
  }

  /** The pattern tried at the start of `s`. After `xmlns:` the word run is
      taken whole (the `=` that must follow is not a word character), and
      the lazy `[^"]+?` stops at the first double quote. */
  function MatchDecl(s: string): (r: Option<Decl>)
    ensures r.Some? ==> Opens(s, r.value)
  {
    if |s| < |Opening| || s[..|Opening|] != Opening then None
    else MatchPrefix(s, WordRun(s[|Opening|..]))
  }

  /** The pattern after `xmlns:`, with `n` word characters following it. */
  function MatchPrefix(s: string, n: nat): (r: Option<Decl>)
    requires |Opening| <= |s| && s[..|Opening|] == Opening && n == WordRun(s[|Opening|..])
    ensures r.Some? ==> Opens(s, r.value)
  {
    var k := |Opening|;
    if n == 0 || |s| < k + n + 2 || s[k + n] != '=' || s[k + n + 1] != '"' then None
    else MatchUri(s, n, IndexOf(s[k + n + 2..], '"'))
  }

  /** The pattern after `xmlns:prefix="`, the next double quote `q`
      characters on. */
  function MatchUri(s: string, n: nat, q: nat): (r: Option<Decl>)
    requires |Opening| + n + 2 + q <= |s| && s[..|Opening|] == Opening
    requires 0 < n && forall i :: 0 <= i < n ==> IsWordChar(s[|Opening|..][i])
    requires s[|Opening| + n] == '=' && s[|Opening| + n + 1] == '"'
    requires q == IndexOf(s[|Opening| + n + 2..], '"')
    ensures r.Some? ==> Opens(s, r.value)
  {
    var k := |Opening|;
    if q == 0 || k + n + 2 + q == |s| then None
    else
      MatchedText(s, n, q);
      Some(Decl(s[k..k + n], s[k + n + 2..k + n + 2 + q]))
  }

  /** The declaration read off `s` with an `n`-character prefix and a
      `q`-character URI is valid and spells the start of `s`. */
  lemma MatchedText(s: string, n: nat, q: nat)
    requires |Opening| + n + 2 + q < |s| && s[..|Opening|] == Opening
    requires 0 < n && forall i :: 0 <= i < n ==> IsWordChar(s[|Opening|..][i])
    requires s[|Opening| + n] == '=' && s[|Opening| + n + 1] == '"'
    requires 0 < q && IndexOf(s[|Opening| + n + 2..], '"') == q
    ensures Opens(s, Decl(s[|Opening|..|Opening| + n], s[|Opening| + n + 2..|Opening| + n + 2 + q]))
  {
    var k := |Opening|;
    var p, u := s[k..k + n], s[k + n + 2..k + n + 2 + q];
    var v := s[k + n + 2..];
    assert u == v[..q] && v[q] == '"';
    assert forall i :: 0 <= i < n ==> p[i] == s[k..][i];
    assert ValidDecl(Decl(p, u));
    DeclSpelled(s, p, u);
  }

  /** `s` spells out the declaration of `p` and `u` at its start. */
  lemma DeclSpelled(s: string, p: string, u: string)
    requires |Opening| + |p| + 2 + |u| < |s| && s[..|Opening|] == Opening
    requires s[|Opening|..|Opening| + |p|] == p
    requires s[|Opening| + |p|] == '=' && s[|Opening| + |p| + 1] == '"'
    requires s[|Opening| + |p| + 2..|Opening| + |p| + 2 + |u|] == u && s[|Opening| + |p| + 2 + |u|] == '"'
    ensures |DeclText(Decl(p, u))| <= |s| && s[..|DeclText(Decl(p, u))|] == DeclText(Decl(p, u))
  {
    var k, n, q := |Opening|, |p|, |u|;
    PrefixExtend(s, Opening, p);
    assert s[k + n..k + n + 2] == "=\"";
    PrefixExtend(s, Opening + p, "=\"");
    PrefixExtend(s, Opening + p + "=\"", u);
    assert s[k + n + 2 + q..k + n + 3 + q] == "\"";
    PrefixExtend(s, Opening + p + "=\"" + u, "\"");
  }

  /** A prefix of `s` followed by the next slice of `s` is a longer prefix. */
  lemma PrefixExtend(s: string, a: string, b: string)
    requires |a| + |b| <= |s| && s[..|a|] == a && s[|a|..|a| + |b|] == b
    ensures s[..|a| + |b|] == a + b
  {
    forall i | 0 <= i < |a| + |b| ensures s[..|a| + |b|][i] == (a + b)[i] {
      if i < |a| {
        assert s[..|a|][i] == s[i];
      } else {
        assert s[|a|..|a| + |b|][i - |a|] == s[i];
      }
    }
  }

  /** `re.findall` over the whole text: a match consumes its text and the
      scan resumes after it; otherwise the scan moves on by one character. */
  function FindAll(s: string): (ds: seq<Decl>)
    ensures forall i :: 0 <= i < |ds| ==> ValidDecl(ds[i])
    decreases |s|
  {
    if |s| == 0 then []
    else
      match MatchDecl(s)
      case Some(d) => [d] + FindAll(s[|DeclText(d)|..])
      case None => FindAll(s[1..])
  }

  /** Where in `s` the matches of the scan of `s[from..]` start, in the
      same order, as offsets into `s`. */
  function MatchOffsets(s: string, from: nat): (offs: seq<nat>)
    requires from <= |s|
    ensures forall i :: 0 <= i < |offs| ==> from <= offs[i]
    decreases |s| - from, 1
  {
    if from == |s| then [] else OffsetsAfter(s, from, MatchDecl(s[from..]))
  }

  /** The offsets from `from` on, given what the pattern matched there. */
  function OffsetsAfter(s: string, from: nat, m: Option<Decl>): (offs: seq<nat>)
    requires from < |s| && (m.Some? ==> from + |DeclText(m.value)| <= |s|)
    ensures forall i :: 0 <= i < |offs| ==> from <= offs[i]
    decreases |s| - from, 0
  {
    match m
    case Some(d) => [from] + MatchOffsets(s, from + |DeclText(d)|)
    case None => MatchOffsets(s, from + 1)
  }

  /** `ds` are matches of the pattern in `s` at the offsets `offs`, in
      order and without overlap. */
  predicate MatchedAt(s: string, ds: seq<Decl>, offs: seq<nat>) {
    |ds| == |offs| && MatchesAt(s, ds, offs) && Apart(ds, offs)
  }

  /** Each of `ds` is what the pattern matches at its offset in `s`. */
  predicate MatchesAt(s: string, ds: seq<Decl>, offs: seq<nat>)
    requires |ds| == |offs|
  {
    forall i :: 0 <= i < |ds| ==> offs[i] < |s| && MatchDecl(s[offs[i]..]) == Some(ds[i])
  }

  /** Each match at `offs` ends before any later one starts. */
  predicate Apart(ds: seq<Decl>, offs: seq<nat>)
    requires |ds| == |offs|
  {
    forall i, j :: 0 <= i < j < |ds| ==> offs[i] + |DeclText(ds[i])| <= offs[j]
  }

  /** Position `p` lies inside one of the matches `ds` at `offs`. */
  predicate Covered(ds: seq<Decl>, offs: seq<nat>, p: nat) {
    exists i :: 0 <= i < |ds| && i < |offs| && offs[i] <= p < offs[i] + |DeclText(ds[i])|
  }

  /** Soundness of the scan of `s[from..]`: each match found is the pattern
      matched at its offset in `s`, and each starts after the previous one
      ends. */
  lemma {:induction false} FindAllSound(s: string, from: nat)
    requires from <= |s|
    ensures MatchedAt(s, FindAll(s[from..]), MatchOffsets(s, from))
    decreases |s| - from
  {
    if from < |s| {
      var next := ScanStep(s, from);
      FindAllSound(s, next);
      match MatchDecl(s[from..])
      case Some(d) =>
        MatchedCons(s, from, d, FindAll(s[next..]), MatchOffsets(s, next));
      case None =>
    }
  }

  /** The scan of `s[from..]` reports `ds` at the offsets `offs` and then
      carries on as the scan from `next`. */
  predicate ScansTo(s: string, from: nat, next: nat, ds: seq<Decl>, offs: seq<nat>) {
    from < next <= |s| && FindAll(s[from..]) == ds + FindAll(s[next..])
    && MatchOffsets(s, from) == offs + MatchOffsets(s, next)
  }

  /** One step of the scan from `from`: a match there is reported and the
      scan resumes at its end, otherwise it resumes one character on. */
  lemma ScanStep(s: string, from: nat) returns (next: nat)
    requires from < |s|
    ensures from < next <= |s|
    ensures MatchDecl(s[from..]).None? ==> next == from + 1 && ScansTo(s, from, next, [], [])
    ensures MatchDecl(s[from..]).Some? ==>
              next == from + |DeclText(MatchDecl(s[from..]).value)|
              && ScansTo(s, from, next, [MatchDecl(s[from..]).value], [from])
  {
    match MatchDecl(s[from..])
    case Some(d) =>
      next := from + |DeclText(d)|;
      ScanMatch(s, from, d);
    case None =>
      next := from + 1;
      ScanSkip(s, from);
  }

  lemma ScanMatch(s: string, from: nat, d: Decl)
    requires from < |s| && MatchDecl(s[from..]) == Some(d)
    ensures from + |DeclText(d)| <= |s|
    ensures ScansTo(s, from, from + |DeclText(d)|, [d], [from])
  {
    ScanMatchFinds(s, from, d);
    ScanMatchOffsets(s, from, d);
  }

  lemma ScanMatchFinds(s: string, from: nat, d: Decl)
    requires from < |s| && MatchDecl(s[from..]) == Some(d)
    ensures from + |DeclText(d)| <= |s|
    ensures FindAll(s[from..]) == [d] + FindAll(s[from + |DeclText(d)|..])
  {
    FindAllAt(s[from..], d);
    DropDrop(s, from, |DeclText(d)|);
  }

  lemma ScanMatchOffsets(s: string, from: nat, d: Decl)
    requires from < |s| && MatchDecl(s[from..]) == Some(d) && from + |DeclText(d)| <= |s|
    ensures MatchOffsets(s, from) == [from] + MatchOffsets(s, from + |DeclText(d)|)
  {
    OffsetsUnfold(s, from);
    OffsetsAfterMatch(s, from, d);
  }

  lemma OffsetsAfterMatch(s: string, from: nat, d: Decl)
    requires from < |s| && from + |DeclText(d)| <= |s|
    ensures OffsetsAfter(s, from, Some(d)) == [from] + MatchOffsets(s, from + |DeclText(d)|)
  {
  }

  lemma OffsetsUnfold(s: string, from: nat)
    requires from < |s|
    ensures MatchOffsets(s, from) == OffsetsAfter(s, from, MatchDecl(s[from..]))
  {
  }

  lemma ScanSkip(s: string, from: nat)
    requires from < |s| && MatchDecl(s[from..]).None?
    ensures ScansTo(s, from, from + 1, [], [])
  {
    FindAllNone(s[from..]);
    DropDrop(s, from, 1);
    OffsetsUnfold(s, from);
    OffsetsAfterNone(s, from);
    assert [] + FindAll(s[from + 1..]) == FindAll(s[from + 1..]);
    assert [] + MatchOffsets(s, from + 1) == MatchOffsets(s, from + 1);
  }

  lemma FindAllNone(t: string)
    requires |t| > 0 && MatchDecl(t).None?
    ensures FindAll(t) == FindAll(t[1..])
  {
  }

  lemma OffsetsAfterNone(s: string, from: nat)
    requires from < |s|
    ensures OffsetsAfter(s, from, None) == MatchOffsets(s, from + 1)
  {
  }

  lemma MatchedCons(s: string, from: nat, d: Decl, ds: seq<Decl>, offs: seq<nat>)
    requires from < |s| && MatchDecl(s[from..]) == Some(d)
    requires MatchedAt(s, ds, offs)
    requires forall i :: 0 <= i < |offs| ==> from + |DeclText(d)| <= offs[i]
    ensures MatchedAt(s, [d] + ds, [from] + offs)
  {
    MatchesCons(s, from, d, ds, offs);
    ApartCons(from, d, ds, offs);
  }

  lemma MatchesCons(s: string, from: nat, d: Decl, ds: seq<Decl>, offs: seq<nat>)
    requires from < |s| && MatchDecl(s[from..]) == Some(d)
    requires |ds| == |offs| && MatchesAt(s, ds, offs)
    ensures MatchesAt(s, [d] + ds, [from] + offs)
  {
    var ds', offs' := [d] + ds, [from] + offs;
    forall i | 0 <= i < |ds'|
      ensures offs'[i] < |s| && MatchDecl(s[offs'[i]..]) == Some(ds'[i])
    {
      if i > 0 {
        assert ds'[i] == ds[i - 1] && offs'[i] == offs[i - 1];
      }
    }
  }

  lemma ApartCons(from: nat, d: Decl, ds: seq<Decl>, offs: seq<nat>)
    requires |ds| == |offs| && Apart(ds, offs)
    requires forall i :: 0 <= i < |offs| ==> from + |DeclText(d)| <= offs[i]
    ensures Apart([d] + ds, [from] + offs)
  {
    var ds', offs' := [d] + ds, [from] + offs;
    forall i, j | 0 <= i < j < |ds'|
      ensures offs'[i] + |DeclText(ds'[i])| <= offs'[j]
    {
      assert offs'[j] == offs[j - 1];
      if i > 0 {
        assert ds'[i] == ds[i - 1] && offs'[i] == offs[i - 1];
      }
    }
  }

  /** Completeness of the scan of `s[from..]`: wherever the pattern matches
      from `from` on, that position lies inside a match the scan found, so
      no match is skipped. With `FindAllSound` this pins the scan down to
      the leftmost, non-overlapping matches. */
  lemma {:induction false} FindAllComplete(s: string, from: nat, p: nat)
    requires from <= p < |s| && MatchDecl(s[p..]).Some?
    ensures Covered(FindAll(s[from..]), MatchOffsets(s, from), p)
    decreases |s| - from
  {
    var next := ScanStep(s, from);
    match MatchDecl(s[from..])
    case Some(d) =>
      if next <= p {
        FindAllComplete(s, next, p);
      }
      CoveredCons(d, FindAll(s[next..]), MatchOffsets(s, next), from, p);
    case None =>
      assert from < p;
      FindAllComplete(s, next, p);
  }

  /** Putting a match at `from` in front keeps `p` covered, and covers it
      when it lies inside that match. */
  lemma CoveredCons(d: Decl, ds: seq<Decl>, offs: seq<nat>, from: nat, p: nat)
    requires from <= p
    requires p < from + |DeclText(d)| || Covered(ds, offs, p)
    ensures Covered([d] + ds, [from] + offs, p)
  {
    if p < from + |DeclText(d)| {
      assert ([d] + ds)[0] == d && ([from] + offs)[0] == from;
    } else {
      var j :| 0 <= j < |ds| && j < |offs| && offs[j] <= p < offs[j] + |DeclText(ds[j])|;
      assert ([d] + ds)[j + 1] == ds[j] && ([from] + offs)[j + 1] == offs[j];
    }
  }

  lemma FindAllAt(t: string, d: Decl)
    requires |t| > 0 && MatchDecl(t) == Some(d)
    ensures FindAll(t) == [d] + FindAll(t[|DeclText(d)|..])
  {
  }

  lemma DropDrop(s: string, k: nat, o: nat)
    requires k + o <= |s|
    ensures s[k..][o..] == s[k + o..]
  {
  }

  /** Lines 102-105: `ns[prefix.strip()] = uri.strip()` for each match in
      turn. The keys are the stripped prefixes of the matches. */
  function Fold(ds: seq<Decl>): (ns: map<string, string>)
    ensures |ns| <= |ds|
    ensures |ds| > 0 ==> |ns| > 0
  {
    if |ds| == 0 then map[]
    else
      var last := ds[|ds| - 1];
      Fold(ds[..|ds| - 1])[Strip(last.prefix) := Strip(last.uri)]
  }

  /** The prefix map `parseWeather` passes to every prefixed `find`. Its
      keys are the prefixes matched, which need no stripping: each is a
      non-empty run of word characters. */
  function NamespaceMap(data: string): (ns: map<string, string>)
    ensures forall p :: p in ns ==> |p| > 0 && forall i :: 0 <= i < |p| ==> IsWordChar(p[i])
  {
    var ds := FindAll(data);
    MatchedPrefixes(ds);
    Fold(ds)
  }

  /** The keys of the map of valid declarations are their prefixes. */
  lemma MatchedPrefixes(ds: seq<Decl>)
    requires forall i :: 0 <= i < |ds| ==> ValidDecl(ds[i])
    ensures forall p :: p in Fold(ds) ==> |p| > 0 && forall i :: 0 <= i < |p| ==> IsWordChar(p[i])
  {
    forall p | p in Fold(ds)
      ensures |p| > 0 && forall i :: 0 <= i < |p| ==> IsWordChar(p[i])
    {
      FoldKeys(ds, p);
      var i :| 0 <= i < |ds| && Strip(ds[i].prefix) == p;
      WordNotSpace(ds[i].prefix);
    }
  }

  /** The loop of lines 104-105, run over the matches in order. */
  method CollectNamespaces(data: string) returns (ns: map<string, string>)
    ensures ns == NamespaceMap(data)
  {
    var found := FindAll(data);
    ns := map[];
    var i := 0;
    while i < |found|
      invariant 0 <= i <= |found|
      invariant ns == Fold(found[..i])
    {
      FoldStep(found, i);
      ns := ns[Strip(found[i].prefix) := Strip(found[i].uri)];
      i := i + 1;
    }
    assert found[..i] == found;
  }

  lemma FoldStep(ds: seq<Decl>, i: nat)
    requires i < |ds|
    ensures Fold(ds[..i + 1]) == Fold(ds[..i])[Strip(ds[i].prefix) := Strip(ds[i].uri)]
  {
    assert ds[..i + 1][..i] == ds[..i];
  }

  /** A declaration is matched exactly where its text stands. */
  lemma MatchDeclText(d: Decl, rest: string)
    requires ValidDecl(d)
    ensures MatchDecl(DeclText(d) + rest) == Some(d)
  {
    MatchDeclTextOf(d, rest, DeclText(d) + rest);
  }

  lemma MatchDeclTextOf(d: Decl, rest: string, s: string)
    requires ValidDecl(d) && s == DeclText(d) + rest
    ensures MatchDecl(s) == Some(d)
  {
    var k, n, q := |Opening|, |d.prefix|, |d.uri|;
    DeclLayout(d, rest);
    WordRunUntil(s[k..], n);
    IndexOfUntil(s[k + n + 2..], q, '"');
    MatchDeclAt(s, n, q);
  }

  /** A run of `n` word characters followed by a non-word character. */
  lemma WordRunUntil(t: string, n: nat)
    requires n < |t| && !IsWordChar(t[n])
    requires forall i :: 0 <= i < n ==> IsWordChar(t[i])
    ensures WordRun(t) == n
  {
    assert t == t[..n] + t[n..];
    WordRunAppend(t[..n], t[n..]);
  }

  /** The first `c` in `t` at index `q`. */
  lemma IndexOfUntil(t: string, q: nat, c: char)
    requires q < |t| && t[q] == c && c !in t[..q]
    ensures IndexOf(t, c) == q
  {
    assert t == t[..q] + t[q..];
    IndexOfAfter(t[..q], t[q..], c);
  }

  /** One run of the pattern that finds an `n`-character prefix and a
      `q`-character URI. */
  lemma MatchDeclAt(s: string, n: nat, q: nat)
    requires |Opening| + n + 2 + q < |s| && s[..|Opening|] == Opening
    requires 0 < n == WordRun(s[|Opening|..])
    requires s[|Opening| + n] == '=' && s[|Opening| + n + 1] == '"'
    requires 0 < q == IndexOf(s[|Opening| + n + 2..], '"')
    ensures MatchDecl(s) == Some(Decl(s[|Opening|..|Opening| + n], s[|Opening| + n + 2..|Opening| + n + 2 + q]))
  {
  }

  /** Where the parts of a declaration sit in its text. */
  lemma DeclLayout(d: Decl, rest: string)
    requires ValidDecl(d)
    ensures var s, k, n, q := DeclText(d) + rest, |Opening|, |d.prefix|, |d.uri|;
            |s| >= k + n + 3 + q && s[..k] == Opening && s[k..k + n] == d.prefix
            && s[k + n] == '=' && s[k + n + 1] == '"'
            && s[k + n + 2..k + n + 2 + q] == d.uri && s[k + n + 2 + q] == '"'
            && (forall i :: 0 <= i < n ==> IsWordChar(s[k..][i]))
            && '"' !in s[k + n + 2..][..q]
  {
    var s, k, n, q := DeclText(d) + rest, |Opening|, |d.prefix|, |d.uri|;
    forall i | 0 <= i < n ensures s[k..][..n][i] == d.prefix[i] {
      assert s[k..][..n][i] == s[k + i];
    }
    assert s[k..][..n] == d.prefix;
    forall i | 0 <= i < q ensures s[k + n + 2..][..q][i] == d.uri[i] {
      assert s[k + n + 2..][..q][i] == s[k + n + 2 + i];
    }
    assert s[k + n + 2..][..q] == d.uri;
  }

  lemma {:induction false} IndexOfAfter(a: string, b: string, c: char)
    requires c !in a && |b| > 0 && b[0] == c
    ensures IndexOf(a + b, c) == |a|
    decreases |a|
  {
    if |a| == 0 {
      assert a + b == b;
    } else {
      assert (a + b)[1..] == a[1..] + b;
      IndexOfAfter(a[1..], b, c);
    }
  }

  /** The scan reports a declaration and carries on after it. */
  lemma FindAllDecl(d: Decl, rest: string)
    requires ValidDecl(d)
    ensures FindAll(DeclText(d) + rest) == [d] + FindAll(rest)
  {
    MatchDeclText(d, rest);
    assert (DeclText(d) + rest)[|DeclText(d)|..] == rest;
  }

  /** Positions where the pattern does not match are passed over: the scan
      from `from` finds what the scan from `to` finds. */
  lemma {:induction false} FindAllSkipTo(s: string, from: nat, to: nat)
    requires from <= to <= |s|
    requires forall p :: from <= p < to ==> MatchDecl(s[p..]).None?
    ensures FindAll(s[from..]) == FindAll(s[to..])
    decreases |s| - from
  {
    if from < to {
      var next := ScanStep(s, from);
      assert MatchDecl(s[from..]).None?;
      FindAllSkipTo(s, next, to);
    }
  }

  /** The pattern cannot match where there is no `x`. */
  lemma NoMatchWithoutX(t: string)
    requires |t| > 0 && t[0] != 'x'
    ensures MatchDecl(t).None?
  {
    if |t| >= |Opening| {
      assert t[..|Opening|][0] == t[0];
    }
  }

  /** Text without an `x` cannot start a match, so the scan passes over it. */
  lemma FindAllSkip(sep: string, rest: string)
    requires 'x' !in sep
    ensures FindAll(sep + rest) == FindAll(rest)
  {
    var s := sep + rest;
    forall p | 0 <= p < |sep|
      ensures MatchDecl(s[p..]).None?
    {
      assert s[p..][0] == sep[p];
      NoMatchWithoutX(s[p..]);
    }
    FindAllSkipTo(s, 0, |sep|);
    assert s[0..] == s && s[|sep|..] == rest;
  }

  /** Declarations separated by text without an `x`. */
  function Document(seps: seq<string>, ds: seq<Decl>): string
    requires |seps| == |ds| + 1
  {
    if |ds| == 0 then seps[0]
    else seps[0] + DeclText(ds[0]) + Document(seps[1..], ds[1..])
  }

  /** Round trip: the scan recovers exactly the declarations a document was
      written with, in order. */
  lemma {:induction false} FindAllDocument(seps: seq<string>, ds: seq<Decl>)
    requires |seps| == |ds| + 1
    requires forall i :: 0 <= i < |seps| ==> 'x' !in seps[i]
    requires forall i :: 0 <= i < |ds| ==> ValidDecl(ds[i])
    ensures FindAll(Document(seps, ds)) == ds
    decreases |ds|
  {
    if |ds| == 0 {
      FindAllSkip(seps[0], "");
      assert seps[0] + "" == seps[0];
    } else {
      var rest := Document(seps[1..], ds[1..]);
      assert FindAll(rest) == ds[1..] by {
        assert forall i :: 0 <= i < |seps| - 1 ==> seps[1..][i] == seps[i + 1];
        assert forall i :: 0 <= i < |ds| - 1 ==> ds[1..][i] == ds[i + 1];
        FindAllDocument(seps[1..], ds[1..]);
      }
      SeparatedDecl(seps[0], ds[0], rest);
      assert [ds[0]] + ds[1..] == ds;
    }
  }

  /** A separator and a declaration, in front of `rest`. */
  lemma SeparatedDecl(sep: string, d: Decl, rest: string)
    requires 'x' !in sep && ValidDecl(d)
    ensures FindAll(sep + DeclText(d) + rest) == [d] + FindAll(rest)
  {
    assert sep + DeclText(d) + rest == sep + (DeclText(d) + rest);
    FindAllSkip(sep, DeclText(d) + rest);
    FindAllDecl(d, rest);
  }

  /** Text without an `x` declares nothing, so the prefix map is empty. */
  lemma NoDeclarations(data: string)
    requires 'x' !in data
    ensures FindAll(data) == [] && NamespaceMap(data) == map[]
  {
    FindAllSkip(data, "");
    assert data + "" == data;
  }

  /** The prefix map is empty exactly when the pattern matches nowhere in
      the text. */
  lemma EmptyMapIffNoMatch(data: string)
    ensures NamespaceMap(data) == map[] <==> forall p :: 0 <= p < |data| ==> MatchDecl(data[p..]).None?
  {
    assert data[0..] == data;
    if forall p :: 0 <= p < |data| ==> MatchDecl(data[p..]).None? {
      FindAllSkipTo(data, 0, |data|);
      assert data[|data|..] == [];
    } else {
      var p :| 0 <= p < |data| && MatchDecl(data[p..]).Some?;
      FindAllComplete(data, 0, p);
      assert |Fold(FindAll(data))| > 0;
    }
  }

  /** A key of the map is exactly a stripped prefix that some match declares. */
  lemma {:induction false} FoldKeys(ds: seq<Decl>, p: string)
    ensures p in Fold(ds) <==> exists i :: 0 <= i < |ds| && Strip(ds[i].prefix) == p
    decreases |ds|
  {
    if |ds| > 0 {
      var init := ds[..|ds| - 1];
      FoldKeys(init, p);
      if p in Fold(init) {
        var i :| 0 <= i < |init| && Strip(init[i].prefix) == p;
        assert ds[i] == init[i];
      }
      if exists i :: 0 <= i < |ds| && Strip(ds[i].prefix) == p {
        var i :| 0 <= i < |ds| && Strip(ds[i].prefix) == p;
        if i < |ds| - 1 {
          assert init[i] == ds[i];
        }
      }
    }
  }

  /** Matched prefixes need no stripping, so the keys are the prefixes
      themselves: word characters are not whitespace. */
  lemma MatchedKeys(data: string, p: string)
    ensures var ds := FindAll(data);
            p in NamespaceMap(data) <==> exists i :: 0 <= i < |ds| && ds[i].prefix == p
  {
    var ds := FindAll(data);
    FoldKeys(ds, p);
    forall i | 0 <= i < |ds| ensures Strip(ds[i].prefix) == ds[i].prefix {
      WordNotSpace(ds[i].prefix);
    }
  }

  lemma WordNotSpace(s: string)
    requires forall i :: 0 <= i < |s| ==> IsWordChar(s[i])
    ensures Strip(s) == s
  {
    assert forall i :: 0 <= i < |s| ==> !IsSpace(s[i]);
  }

  /** The last declaration of a prefix wins: its stripped URI is the value. */
  lemma {:induction false} FoldLastWins(ds: seq<Decl>, i: nat)
    requires i < |ds|
    requires forall j :: i < j < |ds| ==> Strip(ds[j].prefix) != Strip(ds[i].prefix)
    ensures Strip(ds[i].prefix) in Fold(ds)
    ensures Fold(ds)[Strip(ds[i].prefix)] == Strip(ds[i].uri)
    decreases |ds|
  {
    if i < |ds| - 1 {
      var init := ds[..|ds| - 1];
      assert init[i] == ds[i];
      forall j | i < j < |init| ensures Strip(init[j].prefix) != Strip(init[i].prefix) {
        assert init[j] == ds[j];
      }
      FoldLastWins(init, i);
    }
  }

  /** The map of a document with one declaration between `x`-free text. */
  lemma SingleDeclaration(pre: string, d: Decl, post: string)
    requires ValidDecl(d) && 'x' !in pre && 'x' !in post
    ensures NamespaceMap(pre + DeclText(d) + post) == map[d.prefix := Strip(d.uri)]
  {
    FindAllDocument([pre, post], [d]);
    assert Document([pre, post], [d]) == pre + DeclText(d) + post by {
      assert Document([post], []) == post;
      assert [pre, post][1..] == [post];
      assert [d][1..] == [];
    }
    WordNotSpace(d.prefix);
    assert Fold([d][..0]) == map[];
  }
}

=== FILE: results.dfy ===
/** Failure-compatible wrappers: `Option` for Python's `None`-or-value and
    `Result` for a value or the exception that the source would raise. */
module Results {

  datatype Option<+T> = None | Some(value: T)

  datatype Result<+T, +E> = Ok(value: T) | Err(error: E) {

    predicate IsFailure() {
      Err?
    }

    function PropagateFailure<U>(): Result<U, E>
      requires Err?
    {
      Err(error)
    }

    function Extract(): T
      requires Ok?
    {
      value
    }
  }
}

=== FILE: template.dfy ===
/** The semantics assumed for Python's `string.Template.substitute(mapping)`
    with its default delimiter `$` and identifier pattern `[_a-z][_a-z0-9]*`,
    matched case-insensitively over ASCII. The template is scanned left to
    right; at each `$`:
      - `$$` is an escape and yields one `$`;
      - `$name` takes the longest identifier and yields `mapping[name]`;
      - `${name}` is the braced form of the same;
      - anything else is an invalid placeholder (a ValueError).
    A name absent from the mapping is a KeyError. The first placeholder that
    fails decides the error; text outside placeholders is copied. */
module Template {
  import opened Results
  import opened Chars

  datatype TemplateError =
    | InvalidPlaceholder(offset: nat)   // offset of the character after the `$`
    | MissingKey(key: string)

  type Rendering = Result<string, TemplateError>

  /** `s` followed by the rendering `r`, or the failure of `r`. */
  function Prepend(s: string, r: Rendering): Rendering {
    match r
    case Ok(v) => Ok(s + v)
    case Err(e) => Err(e)
  }

  lemma PrependEmpty(r: Rendering)
    ensures Prepend("", r) == r
  {
    if r.Ok? {
      assert "" + r.value == r.value;
    }
  }

  lemma PrependTwice(a: string, b: string, r: Rendering)
    ensures Prepend(a, Prepend(b, r)) == Prepend(a + b, r)
  {
    if r.Ok? {
      assert a + (b + r.value) == (a + b) + r.value;
    }
  }

  /** Well-formed errors: a missing key is an identifier the mapping lacks,
      and an invalid placeholder lies within `lo..hi`. */
  predicate ErrorWithin(r: Rendering, m: map<string, string>, lo: nat, hi: nat) {
    r.Err? ==>
      match r.error
      case MissingKey(k) => IsIdentifier(k) && k !in m
      case InvalidPlaceholder(o) => lo <= o <= hi
  }

  /** Length of the identifier that begins `s`; 0 when none does. */
  function NameLength(s: string): (n: nat)
    ensures n <= |s|
    ensures n > 0 <==> |s| > 0 && IsNameStart(s[0])
    ensures n > 0 ==> IsIdentifier(s[..n])
    ensures n < |s| ==> !IsWordChar(s[n]) || n == 0
  {
    if |s| > 0 && IsNameStart(s[0]) then 1 + WordRun(s[1..]) else 0
  }

  /** An identifier followed by a non-word character, or by nothing, is
      read as exactly that identifier. */
  lemma NameLengthStable(x: string, y: string)
    requires IsIdentifier(x)
    requires |y| == 0 || !IsWordChar(y[0])
    ensures NameLength(x + y) == |x|
  {
    assert (x + y)[0] == x[0];
    assert (x + y)[1..] == x[1..] + y;
    WordRunAppend(x[1..], y);
  }

  /** Text appended after a name that is already ended, or that does not
      go on with a word character, leaves the name as it was. */
  lemma NameLengthExtend(x: string, y: string)
    requires NameLength(x) > 0
    requires NameLength(x) < |x| || |y| == 0 || !IsWordChar(y[0])
    ensures NameLength(x + y) == NameLength(x)
  {
    assert (x + y)[0] == x[0];
    assert (x + y)[1..] == x[1..] + y;
    WordRunExtend(x[1..], y);
  }

  /** Length of the braced placeholder `{name}` that begins `s`; 0 when none does. */
  function BracedLength(s: string): (n: nat)
    ensures n <= |s|
    ensures n > 0 ==> n >= 3 && s[0] == '{' && s[n - 1] == '}' && IsIdentifier(s[1..n - 1])
  {
    if |s| > 0 && s[0] == '{' then
      var k := NameLength(s[1..]);
      assert s[1..][..k] == s[1..k + 1];
      if k > 0 && 1 + k < |s| && s[1 + k] == '}' then k + 2 else 0
    else 0
  }

  /** A braced name, once closed, is not changed by what follows it. */
  lemma BracedLengthExtend(x: string, y: string)
    requires BracedLength(x) > 0
    ensures BracedLength(x + y) == BracedLength(x)
  {
    var k := NameLength(x[1..]);
    assert (x + y)[1..] == x[1..] + y;
    NameLengthExtend(x[1..], y);
  }

  /** `mapping[name]` followed by `rest`, or the KeyError. */
  function Lookup(name: string, m: map<string, string>, rest: Rendering): Rendering {
    if name in m then Prepend(m[name], rest) else Err(MissingKey(name))
  }

  /** Substitution over the remainder `t` of a template whose first character
      sits at offset `base` of the whole template. */
  function SubstituteAt(t: string, base: nat, m: map<string, string>): (r: Rendering)
    decreases |t|, 1
  {
    if |t| == 0 then Ok("")
    else if t[0] != '$' then
      assert t == t[..1] + t[1..];
      Prepend(t[..1], SubstituteAt(t[1..], base + 1, m))
    else Placeholder(t[1..], base + 1, m)
  }

  /** What follows a delimiter `$`; `s` starts at offset `base` of the template. */
  function Placeholder(s: string, base: nat, m: map<string, string>): (r: Rendering)
    decreases |s|, 0
  {
    if |s| > 0 && s[0] == '$' then Prepend("$", SubstituteAt(s[1..], base + 1, m))
    else if NameLength(s) > 0 then
      var n := NameLength(s);
      Lookup(s[..n], m, SubstituteAt(s[n..], base + n, m))
    else if BracedLength(s) > 0 then
      var n := BracedLength(s);
      Lookup(s[1..n - 1], m, SubstituteAt(s[n..], base + n, m))
    else Err(InvalidPlaceholder(base))
  }

  /** `Template(t).substitute(m)`. */
  function Substitute(t: string, m: map<string, string>): (r: Rendering)
    ensures ErrorWithin(r, m, 1, |t|)
    ensures '$' !in t ==> r == Ok(t)
  {
    SubstituteWithin(t, 0, m);
    SubstituteAt(t, 0, m)
  }

  /** Errors are well-formed and located inside the text scanned, and a
      text without `$` is copied as it stands. */
  lemma {:induction false} SubstituteWithin(t: string, base: nat, m: map<string, string>)
    ensures ErrorWithin(SubstituteAt(t, base, m), m, base + 1, base + |t|)
    ensures '$' !in t ==> SubstituteAt(t, base, m) == Ok(t)
    decreases |t|, 1
  {
    if |t| > 0 {
      if t[0] != '$' {
        SubstituteWithin(t[1..], base + 1, m);
        if '$' !in t {
          assert '$' !in t[1..] by {
            forall i | 0 <= i < |t[1..]| ensures t[1..][i] != '$' {
              assert t[1..][i] == t[i + 1];
            }
          }
          assert t == t[..1] + t[1..];
        }
      } else {
        PlaceholderWithin(t[1..], base + 1, m);
      }
    }
  }

  lemma {:induction false} PlaceholderWithin(s: string, base: nat, m: map<string, string>)
    ensures ErrorWithin(Placeholder(s, base, m), m, base, base + |s|)
    decreases |s|, 0
  {
    if |s| > 0 && s[0] == '$' {
      SubstituteWithin(s[1..], base + 1, m);
    } else if NameLength(s) > 0 {
      var n := NameLength(s);
      SubstituteWithin(s[n..], base + n, m);
    } else if BracedLength(s) > 0 {
      var n := BracedLength(s);
      SubstituteWithin(s[n..], base + n, m);
    }
  }
}

=== FILE: weather.dfy ===
/** The `WeatherData` record of weather.py:30-71: eight fields read from the
    feed and the template its `setFormat` keeps, rendered by `__str__`.

    Lemmas about one fixed format take that format as a parameter pinned by
    a `requires` (`fmt == DefaultFormat`, `lower == "%c"`) rather than
    writing the literal into the conclusion. The statement is the same for
    the one value allowed; the proof then works on a variable with a known
    value instead of evaluating the literal through every function it meets. */
module Weather {
  import opened Results
  import opened Chars
  import opened Template
  import opened Format

  /** A parsed weather report. `time` is the text of the feed's `pubDate`
      element, which ElementTree reports as `None` for an empty element;
      `template` is the rewritten format `setFormat` stored. */
  datatype WeatherData = WeatherData(
    city: string,
    country: string,
    time: Option<string>,
    temperature: string,
    windspeed: string,
    desc: string,
    tempUnit: string,
    speedUnit: string,
    template: string)

  /** The format `__init__` installs. */
  const DefaultFormat: string := "%c (%C),%d,%e,%T,%W"

  /** The directive letters `__str__` can substitute. */
  const DirectiveNames: set<string> := {"c", "C", "d", "t", "T", "w", "W", "e"}

  /** The template `__init__` leaves behind: the rewrite of the default
      format, written out (see `DefaultTemplateIsRewrite`). */
  const DefaultTemplate: string := "$c ($C),$d,$e,$T,$W"

  lemma DefaultTemplateIsRewrite(fmt: string)
    requires fmt == DefaultFormat
    ensures Rewrite(fmt) == DefaultTemplate
  {
    DefaultRewriteChars(fmt, DefaultTemplate);
    RewriteNoDollar(fmt, DefaultTemplate);
  }

  lemma DefaultRewriteChars(fmt: string, t: string)
    requires fmt == DefaultFormat && t == DefaultTemplate
    ensures '$' !in fmt && |t| == |fmt|
    ensures forall i :: 0 <= i < |fmt| ==> t[i] == (if fmt[i] == '%' then '$' else fmt[i])
  {
  }

  /** `WeatherData()` followed by the eight field assignments of
      `parseWeather`: the template is the one `__init__` makes by setting
      the default format (`DefaultTemplateIsRewrite`). */
  function New(city: string, country: string, time: Option<string>, temperature: string,
               windspeed: string, desc: string, tempUnit: string, speedUnit: string): WeatherData
  {
    WeatherData(city, country, time, temperature, windspeed, desc, tempUnit, speedUnit,
                DefaultTemplate)
  }

  /** `setFormat`: replaces the stored template by the rewrite of `fmt`;
      the eight fields are kept. */
  function SetFormat(w: WeatherData, fmt: string): (r: WeatherData)
    ensures '%' !in r.template && |r.template| == |fmt| + Count(fmt, '$')
    ensures r.(template := w.template) == w
  {
    w.(template := Rewrite(fmt))
  }

  /** Python's `str()` of a string or of `None`. */
  function PyStr(v: Option<string>): string {
    match v
    case Some(s) => s
    case None => "None"
  }

  /** The mapping `__str__` hands to `substitute`. */
  function Mapping(w: WeatherData): (m: map<string, string>)
    ensures m.Keys == DirectiveNames
  {
    map[
      "c" := w.city,
      "C" := w.country,
      "d" := PyStr(w.time),
      "t" := w.temperature,
      "T" := w.temperature + "°" + w.tempUnit,
      "w" := w.windspeed,
      "W" := w.windspeed + " " + w.speedUnit,
      "e" := w.desc
    ]
  }

  /** `str(w)`: the stored template substituted with the mapping. A
      template without `$` prints as itself; a `KeyError` names an
      identifier that is none of the eight directive names; a `ValueError`
      points inside the template. */
  function ToString(w: WeatherData): (r: Rendering)
    ensures '$' !in w.template ==> r == Ok(w.template)
    ensures r.Err? && r.error.MissingKey? ==> IsIdentifier(r.error.key) && r.error.key !in DirectiveNames
    ensures r.Err? && r.error.InvalidPlaceholder? ==> 1 <= r.error.offset <= |w.template|
  {
    Substitute(w.template, Mapping(w))
  }

  /** What a user format means: rendering a record after `setFormat(fmt)`
      reads the directives straight off `fmt`. */
  lemma RenderReadsFormat(w: WeatherData, fmt: string)
    ensures ToString(SetFormat(w, fmt)) == ReadText(fmt, 0, Mapping(w))
  {
    assert Mapping(SetFormat(w, fmt)) == Mapping(w);
    RewriteAgrees(fmt, Mapping(w));
  }

  /** A format without `%` renders as itself, whatever the record holds: a
      literal `$` comes out as exactly one `$`. */
  lemma RenderVerbatim(w: WeatherData, fmt: string)
    requires '%' !in fmt
    ensures ToString(SetFormat(w, fmt)) == Ok(fmt)
  {
    RenderReadsFormat(w, fmt);
    ReadVerbatim(fmt, 0, Mapping(w));
  }

  /** `%c` and `%C` render as the city and the country. */
  lemma RenderPlace(w: WeatherData, lower: string, upper: string)
    requires lower == "%c" && upper == "%C"
    ensures ToString(SetFormat(w, lower)) == Ok(w.city)
    ensures ToString(SetFormat(w, upper)) == Ok(w.country)
  {
    RenderAlone(w, lower, "c");
    RenderAlone(w, upper, "C");
  }

  /** `%d` renders as the `pubDate` text as it stands (`None` when the
      element is empty) and `%e` as the description. */
  lemma RenderDateAndDescription(w: WeatherData, date: string, description: string)
    requires date == "%d" && description == "%e"
    ensures ToString(SetFormat(w, date)) == Ok(PyStr(w.time))
    ensures ToString(SetFormat(w, description)) == Ok(w.desc)
  {
    RenderAlone(w, date, "d");
    RenderAlone(w, description, "e");
  }

  /** `%t` gives the bare temperature and `%T` appends a degree sign and
      the temperature unit. */
  lemma RenderTemperature(w: WeatherData, lower: string, upper: string)
    requires lower == "%t" && upper == "%T"
    ensures ToString(SetFormat(w, lower)) == Ok(w.temperature)
    ensures ToString(SetFormat(w, upper)) == Ok(w.temperature + "°" + w.tempUnit)
  {
    RenderAlone(w, lower, "t");
    RenderAlone(w, upper, "T");
  }

  /** `%w` gives the bare wind speed and `%W` appends a space and the
      speed unit. */
  lemma RenderWind(w: WeatherData, lower: string, upper: string)
    requires lower == "%w" && upper == "%W"
    ensures ToString(SetFormat(w, lower)) == Ok(w.windspeed)
    ensures ToString(SetFormat(w, upper)) == Ok(w.windspeed + " " + w.speedUnit)
  {
    RenderAlone(w, lower, "w");
    RenderAlone(w, upper, "W");
  }

  /** Whatever `fmt` reads as against the record's mapping, the record
      renders as after `setFormat(fmt)`. */
  lemma RenderAs(w: WeatherData, fmt: string, r: Rendering)
    requires ReadText(fmt, 0, Mapping(w)) == r
    ensures ToString(SetFormat(w, fmt)) == r
  {
    RenderReadsFormat(w, fmt);
  }

  /** What any unambiguous user format means: literal text without `%`
      (`$` allowed), and known directives each followed by the end, by
      another directive, or by text starting with a non-word character,
      render as the text with every directive replaced by its value. */
  lemma RenderPieces(w: WeatherData, ps: seq<Piece>)
    requires WellSpaced(ps)
    requires forall i :: 0 <= i < |ps| && ps[i].Directive? ==> ps[i].name in DirectiveNames
    ensures ToString(SetFormat(w, Join(ps))) == Ok(Expand(ps, Mapping(w)))
  {
    ReadPieces(ps, 0, Mapping(w));
    RenderAs(w, Join(ps), Ok(Expand(ps, Mapping(w))));
  }

  /** `%%` renders as one `$`, not as the `%` the user typed. */
  lemma RenderPercentPercent(w: WeatherData, pre: string, post: string)
    requires '%' !in pre && '%' !in post
    ensures ToString(SetFormat(w, pre + "%%" + post)) == Ok(pre + "$" + post)
  {
    ReadEscapedPercent(pre, post, Mapping(w));
    RenderAs(w, pre + "%%" + post, Ok(pre + "$" + post));
  }

  /** `%$` renders a `$` and hands the user's `$` to the template as a
      delimiter: `%$c` renders as a dollar sign followed by the city. */
  lemma RenderPercentDollar(w: WeatherData, k: string, post: string)
    requires k in DirectiveNames && '%' !in post
    requires |post| == 0 || !IsWordChar(post[0])
    ensures ToString(SetFormat(w, "%$" + k + post)) == Ok("$" + Mapping(w)[k] + post)
  {
    DirectiveNamesAreIdentifiers(k);
    ReadDollarName(k, post, Mapping(w));
    RenderAs(w, "%$" + k + post, Ok("$" + Mapping(w)[k] + post));
  }

  /** A directive name outside `c C d t T w W e` fails with the name as the
      missing key, whatever format that prints successfully comes before
      it. The name is the longest identifier after the `%`, so `%cX` is the
      unknown name `cX`, not `%c` followed by `X`. */
  lemma RenderUnknownDirective(w: WeatherData, pre: string, name: string, post: string, fmt: string)
    requires ToString(SetFormat(w, pre)).Ok?
    requires IsIdentifier(name) && name !in DirectiveNames
    requires |post| == 0 || !IsWordChar(post[0])
    requires fmt == pre + "%" + name + post
    ensures ToString(SetFormat(w, fmt)) == Err(MissingKey(name))
  {
    var m := Mapping(w);
    assert ReadText(pre, 0, m).Ok? by {
      RenderReadsFormat(w, pre);
    }
    ReadUnknownName(pre, name, post, m, fmt);
    RenderAs(w, fmt, Err(MissingKey(name)));
  }

  /** A `%` at the end of the format, or followed by a character that opens
      neither a name, `%`, `$` nor a braced name, fails as an invalid
      placeholder just past the template that the text in front of it is
      stored as, whatever format that prints successfully comes before it. */
  lemma RenderInvalidDirective(w: WeatherData, pre: string, post: string, fmt: string)
    requires ToString(SetFormat(w, pre)).Ok? && fmt == pre + "%" + post
    requires |post| == 0 || (!IsNameStart(post[0]) && IsPlain(post[0]) && BracedLength(post) == 0)
    ensures ToString(SetFormat(w, fmt)) == Err(InvalidPlaceholder(|Rewrite(pre)| + 1))
  {
    RenderReadsFormat(w, pre);
    ReadInvalidAfter(pre, post, Mapping(w));
    InvalidPastRewrite(ReadText(pre + "%" + post, 0, Mapping(w)), pre);
    RenderAs(w, fmt, Err(InvalidPlaceholder(|Rewrite(pre)| + 1)));
  }

  /** A format made of one known directive renders as its value. */
  lemma RenderAlone(w: WeatherData, fmt: string, k: string)
    requires k in DirectiveNames && fmt == "%" + k
    ensures ToString(SetFormat(w, fmt)) == Ok(Mapping(w)[k])
  {
    var m := Mapping(w);
    RenderReadsFormat(w, fmt);
    RenderOne(w, m, k, "", 0);
    assert "%" + k + "" == fmt;
    assert m[k] + "" == m[k];
  }

  /** A known directive, ended by a non-word character or by the end of the
      format, renders as its value followed by the rest. */
  lemma RenderOne(w: WeatherData, m: map<string, string>, k: string, rest: string, base: nat)
    requires m == Mapping(w) && k in DirectiveNames
    requires |rest| == 0 || !IsWordChar(rest[0])
    ensures ReadText("%" + k + rest, base, m) == Prepend(m[k], ReadText(rest, base + 1 + |k|, m))
  {
    DirectiveNamesAreIdentifiers(k);
    ReadKnownName(k, rest, base, m);
  }

  lemma DirectiveNamesAreIdentifiers(k: string)
    requires k in DirectiveNames
    ensures IsIdentifier(k) && |k| == 1
  {
    assert k == "c" || k == "C" || k == "d" || k == "t" || k == "T" || k == "w" || k == "W" || k == "e";
  }

  /** With the format `__init__` installs, a record renders as
      city (country),time,description,temperature°unit,speed unit. */
  lemma RenderDefault(city: string, country: string, time: Option<string>, temperature: string,
                      windspeed: string, desc: string, tempUnit: string, speedUnit: string)
    ensures ToString(New(city, country, time, temperature, windspeed, desc, tempUnit, speedUnit))
            == Ok(city + " (" + country + ")," + PyStr(time) + "," + desc + ","
                  + temperature + "°" + tempUnit + "," + windspeed + " " + speedUnit)
  {
    var w := New(city, country, time, temperature, windspeed, desc, tempUnit, speedUnit);
    RenderDefaultOf(w, Mapping(w), DefaultFormat);
  }

  lemma RenderDefaultOf(w: WeatherData, m: map<string, string>, fmt: string)
    requires m == Mapping(w) && fmt == DefaultFormat && w.template == DefaultTemplate
    ensures ToString(w) == Ok(w.city + " (" + w.country + ")," + PyStr(w.time) + "," + w.desc + ","
                              + w.temperature + "°" + w.tempUnit + "," + w.windspeed + " " + w.speedUnit)
  {
    DefaultTemplateIsRewrite(fmt);
    var v := m["c"] + " (" + m["C"] + ")," + m["d"] + "," + m["e"] + "," + m["T"] + "," + m["W"];
    assert ReadText(fmt, 0, m) == Ok(v) by {
      ReadDefault(m);
    }
    RenderThrough(w, m, fmt, v);
    DefaultValues(w, m);
  }

  lemma DefaultValues(w: WeatherData, m: map<string, string>)
    requires m == Mapping(w)
    ensures m["c"] + " (" + m["C"] + ")," + m["d"] + "," + m["e"] + "," + m["T"] + "," + m["W"]
            == w.city + " (" + w.country + ")," + PyStr(w.time) + "," + w.desc + ","
               + w.temperature + "°" + w.tempUnit + "," + w.windspeed + " " + w.speedUnit
  {
  }

  lemma RenderThrough(w: WeatherData, m: map<string, string>, fmt: string, v: string)
    requires m == Mapping(w) && w.template == Rewrite(fmt) && ReadText(fmt, 0, m) == Ok(v)
    ensures ToString(w) == Ok(v)
  {
    RewriteAgrees(fmt, m);
  }

  /** The default format as pieces, in three runs: each directive is
      followed by text opening with a non-word character. */
  const DefaultHead: seq<Piece> := [Directive("c"), Text(" ("), Directive("C"), Text("),")]
  const DefaultMiddle: seq<Piece> := [Directive("d"), Text(","), Directive("e"), Text(",")]
  const DefaultTail: seq<Piece> := [Directive("T"), Text(","), Directive("W")]
  const DefaultPieces: seq<Piece> := DefaultHead + DefaultMiddle + DefaultTail

  lemma DefaultPiecesSpell()
    ensures Join(DefaultPieces) == DefaultFormat
  {
    assert Join(DefaultHead) == "%c (%C),";
    assert Join(DefaultMiddle) == "%d,%e,";
    assert Join(DefaultTail) == "%T,%W";
    JoinRuns(DefaultHead, DefaultMiddle, DefaultTail);
  }

  lemma JoinRuns(a: seq<Piece>, b: seq<Piece>, c: seq<Piece>)
    requires Join(a) == "%c (%C)," && Join(b) == "%d,%e," && Join(c) == "%T,%W"
    ensures Join(a + b + c) == DefaultFormat
  {
    assert Join(a + b + c) == Join(a) + Join(b) + Join(c) by {
      JoinAppend(a + b, c);
      JoinAppend(a, b);
    }
    DefaultFormatRuns(Join(a), Join(b), Join(c));
  }

  lemma DefaultFormatRuns(x: string, y: string, z: string)
    requires x == "%c (%C)," && y == "%d,%e," && z == "%T,%W"
    ensures x + y + z == DefaultFormat
  {
  }

  lemma DefaultPiecesSpaced()
    ensures WellSpaced(DefaultPieces)
  {
    var ps := DefaultPieces;
    forall i | 0 <= i < |ps| ensures SpacedAt(ps, i) {
      if ps[i].Directive? {
        DirectiveNamesAreIdentifiers(ps[i].name);
      }
    }
  }

  lemma ExpandDefault(m: map<string, string>)
    requires DirectiveNames <= m.Keys
    ensures forall i :: 0 <= i < |DefaultPieces| && DefaultPieces[i].Directive? ==> DefaultPieces[i].name in m
    ensures Expand(DefaultPieces, m)
            == m["c"] + " (" + m["C"] + ")," + m["d"] + "," + m["e"] + "," + m["T"] + "," + m["W"]
  {
    ExpandRun(DefaultHead, m, "c", " (", "C", "),");
    ExpandRun(DefaultMiddle, m, "d", ",", "e", ",");
    ExpandTail(DefaultTail, m);
    ExpandAppend(DefaultHead, DefaultMiddle, m);
    ExpandAppend(DefaultHead + DefaultMiddle, DefaultTail, m);
  }

  lemma ExpandRun(a: seq<Piece>, m: map<string, string>, k1: string, t1: string, k2: string, t2: string)
    requires a == [Directive(k1), Text(t1), Directive(k2), Text(t2)] && k1 in m && k2 in m
    ensures forall i :: 0 <= i < |a| && a[i].Directive? ==> a[i].name in m
    ensures Expand(a, m) == m[k1] + t1 + m[k2] + t2
  {
    assert a[1..][1..][1..][1..] == [];
    assert Expand(a[1..][1..][1..], m) == t2;
    assert Expand(a[1..][1..], m) == m[k2] + t2;
  }

  lemma ExpandTail(c: seq<Piece>, m: map<string, string>)
    requires c == [Directive("T"), Text(","), Directive("W")] && "T" in m && "W" in m
    ensures forall i :: 0 <= i < |c| && c[i].Directive? ==> c[i].name in m
    ensures Expand(c, m) == m["T"] + "," + m["W"]
  {
    assert c[1..][1..][1..] == [];
    assert Expand(c[1..][1..], m) == m["W"];
  }

  /** The default format read against any mapping that has the directive names. */
  lemma ReadDefault(m: map<string, string>)
    requires DirectiveNames <= m.Keys
    ensures ReadText(DefaultFormat, 0, m)
            == Ok(m["c"] + " (" + m["C"] + ")," + m["d"] + "," + m["e"] + "," + m["T"] + "," + m["W"])
  {
    DefaultPiecesSpell();
    DefaultPiecesSpaced();
    ExpandDefault(m);
    ReadPieces(DefaultPieces, 0, m);
  }
}
